=== FILE: README.md ===
# A verified model of a command-line micro-blogging client

The client is one Python program over an SQLite database of users,
tweets, retweets, follow edges, favourite lists, list memberships and
hashtag mentions. A session starts logged out. The user can log in with a
numeric id and password, sign up, or exit. Once logged in, the user can:

- search tweets by comma-separated keywords, then open a tweet to reply to it, retweet it or add it to a favourite list;
- search users by a keyword in their names, then open a user to follow them or page through their tweets;
- compose a tweet, whose `#tags` become hashtag mentions;
- list their followers, and open one the same way;
- list their favourite lists;
- log out.

Results are shown five at a time, with a "Show more? (y/n)" prompt between pages.

The model is in Dafny and follows the program's structure:

| file | module | what it holds |
|---|---|---|
| `text.dfy` | `Text` | Python's `strip`, `lower` and `split(',')` on ASCII; keyword parsing; `#(\w+)` hashtag extraction; the email rule; 1-based number selection |
| `paging.dfy` | `Paging` | the five-a-page loop with its "Show more?" prompt |
| `schema.dfy` | `Schema` | the seven tables as sequences of rows, append-only growth, and the `1 + MAX(id)` identifier rule |
| `queries.dfy` | `Queries` | the read-only queries: feed `UNION`, tweet and user search, counts, login, listings |
| `ops.dfy` | `Ops` | the six write operations as functions from tables to tables, and the invariant they keep |
| `store.dfy` | `Store` | the connection as a class whose methods update its tables in place |
| `client.dfy` | `Client` | the screens and their sub-menu loops |
| `session.dfy` | `Session` | the main loop's state machine |
| `finding.dfy` | `Finding` | the session id as the code really holds it (see Findings) |

What the user types, the clock and the storage outcome are inputs:

- A storage outcome is an `accepted` flag. When it is false, the insert fails and changes nothing, which is the `except` branch.
- For a compose, a set of `rejected` terms names the mention inserts that fail. Compose ignores those failures.
- Input that runs out means "stop" or "back".

The invariant `Ops.Consistent` holds these facts:

- user ids are distinct, and so are tids;
- a retweet names the true writer of an existing tweet;
- there are no self-follow edges and no duplicate edges;
- a list membership names an existing list;
- each mention is a lower-case term of an existing tweet, and no mention appears twice.

Every write operation, every screen and the main loop preserve it, and they only append rows. For the main loop this holds with the session id kept as an integer after signup. The program keeps the string `str(new_id)` there, which lets a user follow themselves (see Findings).

## Model

| member | source | states |
|---|---|---|
| Text.Lower | twitter.py:204 | lower-cases letter by letter, keeps the length, and leaves lower-case text unchanged |
| Text.LeadingSpaces | twitter.py:63 | the number of leading whitespace characters: all of them are spaces and the next one is not |
| Text.TrailingSpaces | twitter.py:63 | the same for trailing whitespace |
| Text.Strip | twitter.py:63 | `str.strip()` gives text with no surrounding whitespace |
| Text.StripSpec | twitter.py:78 | the stripped text is the slice between the first and last non-space character; it is empty exactly when the input is all whitespace |
| Text.StripOfStripped | twitter.py:187 | stripping is idempotent on stripped text |
| Text.LowerKeepsStripped | twitter.py:423 | lower-casing stripped text leaves it stripped |
| Text.SplitCommas | twitter.py:204 | `split(',')` gives one more piece than there are commas; no piece holds a comma; joining the pieces with commas gives back the input |
| Text.SplitJoin | twitter.py:204 | splitting comma-joined, comma-free pieces gives the pieces back |
| Text.SplitNoComma | twitter.py:204 | text without a comma splits into itself |
| Text.SplitPrefix | twitter.py:204 | splitting `p,rest` gives `p` followed by the pieces of `rest` |
| Text.KeywordsOf | twitter.py:204 | the kept keywords are keyword-shaped and never more than the pieces; `KeywordsOfSpec` pins them down exactly |
| Text.ParseKeywords | twitter.py:203-204 | every keyword is non-empty, stripped, lower-case and comma-free; `ParseKeywordsSpec` pins them down exactly |
| Text.Trimmed | twitter.py:204 | `strip().lower()` applied to each piece, one result per piece |
| Text.NonEmpty | twitter.py:204 | the `if kw` filter: the non-empty entries, in order |
| Text.KeywordsOfSpec | twitter.py:204 | the kept keywords are exactly the non-empty trimmed, lower-cased pieces, in input order |
| Text.ParseKeywordsSpec | twitter.py:203-204 | the keywords of a search line are exactly the non-empty trimmed, lower-cased pieces of its `split(',')`, in input order |
| Text.ParseKeywordsExample | twitter.py:203-204 | ` Foo, ,bar` gives the keywords `foo` and `bar` |
| Text.KeywordsOfKeywords | twitter.py:204 | keyword parsing leaves a list of keywords unchanged |
| Text.KeywordsRoundTrip | twitter.py:203-204 | typing keywords joined by commas parses back to exactly those keywords |
| Text.NoKeywordsIff | twitter.py:204-208 | no keywords exactly when every piece is blank, the case that returns early |
| Text.NoKeywordsOf | twitter.py:204 | `KeywordsOf` is empty exactly when every piece is blank |
| Text.AllSpaceCons | twitter.py:204 | a string is all whitespace exactly when its head and tail are |
| Text.BlankPiecesIff | twitter.py:204-206 | the pieces are all blank exactly when the line holds only commas and whitespace |
| Text.WordRun | twitter.py:597 | the longest prefix of `\w` characters |
| Text.WordRunFacts | twitter.py:597 | the word run is a prefix of the text, holds only `\w` characters and is followed by a non-word character or the end |
| Text.LowerChar | twitter.py:598 | lower-casing a character leaves no upper-case letter, changes only `A`-`Z`, and keeps white space and word characters as they were |
| Text.WordRunIs | twitter.py:597 | a run of `\w` characters that is followed by a non-word character is the word run |
| Text.HashtagsAreTerms | twitter.py:596-598 | every extracted term is non-empty, lower-case and made of word characters only |
| Text.Hashtags | twitter.py:596-598 | the set of lower-cased words that follow a `#`, scanned left to right and resuming after each match as `re.findall(r"#(\w+)")` does; `HashtagsIff`, `HashtagsSound` and `HashtagsComplete` state it |
| Text.HashtagsIff | twitter.py:597-598 | a term is a hashtag exactly when some `#` followed by a word character starts it |
| Text.HashtagsSound | twitter.py:597-598 | every hashtag has a position where it occurs |
| Text.HashtagsComplete | twitter.py:597-598 | every `#word` occurrence contributes its lower-cased word |
| Text.TagAfterRun | twitter.py:597 | a `#` never lies inside the word of an earlier match, so scanning on after a match misses no tag |
| Text.ExtractHashtags | twitter.py:596-598 | the scanning loop collects exactly `Hashtags(text)` |
| Text.HashtagsAtTag | twitter.py:597 | at a `#word` the word is added and scanning continues after it |
| Text.HashtagsSkip | twitter.py:597 | a position that does not start a tag adds nothing |
| Text.HashtagsSkipPlain | twitter.py:597 | a stretch of text without `#` adds nothing |
| Text.EndOfWord | twitter.py:597 | the scan for the end of a word stops at the first non-word character or at the end, past only word characters |
| Text.HashtagsExample | twitter.py:597-598 | `hello #Foo #foo bar` yields the single term `foo`, because of case folding and the set |
| Text.ExampleTags | twitter.py:597-598 | the example scanned position by position: plain text, a tag, a blank, a tag, plain text |
| Text.DecimalString | twitter.py:122 | `str` on a natural gives stripped digits whose value is the number |
| Text.ParseSelection | twitter.py:276-285 | a selection is "not a number" exactly when the stripped answer is not all digits; a selected index is below the count |
| Text.ParseSelectionIff | twitter.py:276-285 | an entry is selected exactly when the stripped answer is all digits and `int` of it is between 1 and the count, and the index is that number minus one; a number outside that range is out of range |
| Text.SelectionRoundTrip | twitter.py:276-281 | typing the number shown before entry k selects entry k |
| Text.SelectionOutOfRange | twitter.py:393-399 | "0" and numbers above the count are out of range |
| Text.ValidEmail | twitter.py:104 | the email rule of signup: an `@` and a `.` somewhere; used by `Ops.Signup`, whose contract states when a user is added |
| Paging.IsYes | twitter.py:187-188 | the reading of one answer to "Show more?": stripped and lower-cased, it is `y`; `Paging.RepliesAt` states it for each answer |
| Paging.Replies | twitter.py:187-188 | one yes/no reply per answer to "Show more?" |
| Paging.RepliesAt | twitter.py:187-188 | reply k is yes exactly when answer k, stripped and lower-cased, is `y` |
| Paging.Paginate | twitter.py:176-189 | for typed answers, the listing shows `Pages` of their yes/no readings and asks exactly `Prompts` times |
| Paging.Pages | twitter.py:176-189 | the chunks of five shown, from the start, until the rows run out or an answer is not yes; `PageThrough`, `PagesFull`, `PagesPrefix` and `AllYesShowsAll` state it |
| Paging.Prompts | twitter.py:176-189 | the number of "Show more?" prompts: one after each page that is not the last, until an answer is not yes; `PageThrough` and `AllYesShowsAll` state it |
| Paging.PageThrough | twitter.py:176-189 | the paging loop on yes/no readings shows exactly `Pages(items, yes)`, chunks of five from the start that stop at the end or at the first no, after exactly `Prompts` prompts |
| Paging.Shown | twitter.py:177-182 | after m passes of the loop, m chunks have been printed |
| Paging.ShownAt | twitter.py:177-178 | the chunk printed in pass k is page k |
| Paging.ShownFlat | twitter.py:177-184 | the rows printed in the first m passes are the first 5m results, in order |
| Paging.FlattenSnoc | twitter.py:179-181 | printing one more chunk adds its rows after those already printed |
| Paging.PageCountBound | twitter.py:183-185 | no pass starts past the end of the results: every page shown begins before the last row |
| Paging.AllYesFrom | twitter.py:183-189 | from pass k on, answering yes every time shows the remaining pages up to ceil(n/5) after one prompt fewer |
| Paging.PageAt | twitter.py:177-178 | page k is items 5k to 5k+4 |
| Paging.PagesFull | twitter.py:177-180 | each page holds 1 to 5 items, and every page but the last holds 5 |
| Paging.PagesPrefix | twitter.py:176-189 | the items shown are a prefix of the results, in order |
| Paging.AllYesShowsAll | twitter.py:176-189 | answering yes every time shows every item on ceil(n/5) pages, after one fewer prompts |
| Paging.TypedYesShowsAll | twitter.py:187-189 | the same, for typed answers that read as yes |
| Paging.StopsAtNo | twitter.py:187-189 | with more than five items, a first answer other than yes shows only the first page |
| Schema.MaxId | twitter.py:109-111 | `MAX(id)` with `NULL` read as 0: an element, and no element exceeds it |
| Schema.NextId | twitter.py:109-112 | the new id exceeds every id; it is 1 on an empty table, and otherwise one more than an existing id |
| Schema.AppendKeepsNoDups | twitter.py:119-120 | appending a row not present keeps rows distinct |
| Queries.Filter | twitter.py:546-547 | `WHERE`: the rows kept are exactly those satisfying the condition |
| Queries.FilterAppend | twitter.py:546-547 | filtering an appended row adds it exactly when it satisfies the condition |
| Queries.Map | twitter.py:626 | a projection keeps one value per row |
| Queries.CountAppend | twitter.py:299-303 | `COUNT(*)` grows by one exactly when the appended row matches |
| Queries.Dedup | twitter.py:164-171 | `UNION` keeps every row once and nothing else |
| Queries.Feed | twitter.py:139-171 | the feed lists no row twice; `Queries.FeedIff` states which rows it holds |
| Queries.FeedIff | twitter.py:139-171 | a row is in the feed exactly when it is a tweet by a followee, or a spam-free retweet by a followee; no row repeats |
| Queries.UnionCollapsesRetweets | twitter.py:151-171 | two retweets of the same tweet on the same day by two followees show as one feed row |
| Queries.KeywordMatches | twitter.py:214-247 | the tids one keyword matches; `HashKeywordMatches` and `PlainKeywordMatches` state them |
| Queries.TagMatches | twitter.py:217-225 | the tids of mention rows whose lower-cased term equals the term; `HashKeywordMatches` states it |
| Queries.TextMatches | twitter.py:227-235 | the tids of tweets whose lower-cased text contains the keyword (`LIKE '%kw%'` read as a substring test); `PlainKeywordMatches` states it |
| Queries.HashKeywordMatches | twitter.py:214-224 | a `#term` keyword matches exactly the tweets with that term mentioned |
| Queries.PlainKeywordMatches | twitter.py:225-247 | a plain keyword matches the tweets whose lower-cased text contains it, and the tweets mentioning it as a term |
| Queries.AllMatches | twitter.py:212-247 | the tids any keyword matches; `AllMatchesIff` and `AllMatchesAppend` state them |
| Queries.AllMatchesIff | twitter.py:212-247 | the matched tids are those matching some keyword |
| Queries.AllMatchesAppend | twitter.py:212 | the matches of the keyword list are those of its first keyword united with those of the rest |
| Queries.MatchTweets | twitter.py:210-247 | the loop over keywords collects exactly the tids matching some keyword |
| Queries.SearchResults | twitter.py:251-258 | the tweets whose tid was matched, in table order (ORDER BY left out); `Client.SearchTweets` pages exactly these |
| Queries.UserMatches | twitter.py:427-434 | the user rows a keyword matches; `UserMatchesIff` states them |
| Queries.UserMatchesIff | twitter.py:427-434 | a user row is listed exactly when the user's lower-cased name contains the keyword |
| Queries.InsertByLength | twitter.py:435 | insertion adds exactly the new row |
| Queries.SortByLength | twitter.py:435 | the sort is a permutation |
| Queries.InsertSorted | twitter.py:435 | insertion keeps the rows ordered by name length |
| Queries.InsertStable | twitter.py:435 | insertion keeps the order among names of equal length |
| Queries.SortByLengthSpec | twitter.py:435 | sorting by name length gives ordered rows that are a permutation of the input, and rows of equal length stay in query order, as a stable `sort` leaves them |
| Queries.FindUser | twitter.py:82-84 | a user is found exactly when one has the id typed and the password; the result is that id |
| Queries.Credentials | twitter.py:82-84 | `usr = ? AND pwd = ?`: the typed id is plain decimal digits whose value is the user's id, and the password is equal; `FindUser` and `Login` state it |
| Queries.Login | twitter.py:76-90 | login succeeds exactly when some user's id is the stripped input read as a number and the password matches, and it returns that id |
| Queries.FollowersOf | twitter.py:619-626 | the followers listed are exactly the users following `u`, as many as the follower count |
| Queries.OwnedListNames | twitter.py:383-384 | exactly the names of `u`'s lists |
| Queries.ListTids | twitter.py:673-675 | exactly the tids in the named list of `u` |
| Queries.FavoriteListing | twitter.py:658-681 | one entry per list of `u`, in order, each named after that list and holding exactly the tids in it |
| Queries.UserTweets | twitter.py:537-547 | exactly the tweets written by the user, as many as the tweet count |
| Queries.RecentTweets | twitter.py:486-493 | `LIMIT 3`: the first min(3, tweet count) of the user's tweets |
| Queries.RetweetCount | twitter.py:299-300 | `COUNT(*)` of the retweets of the tweet; `Ops.RetweetCounts` states how a retweet changes it |
| Queries.ReplyCount | twitter.py:302-303 | `COUNT(*)` of the replies to the tweet; `Ops.ReplyCounts` states how a reply changes it |
| Queries.TweetCount | twitter.py:472-473 | `COUNT(*)` of the user's tweets; `UserTweets` lists that many, and `Ops.ComposeCounts` and `Ops.ReplyCounts` state how writes change it |
| Queries.FollowingCount | twitter.py:475-476 | `COUNT(*)` of the follow edges from the user; `Ops.FollowCounts` states how a follow changes it |
| Queries.FollowerCount | twitter.py:478-479 | `COUNT(*)` of the follow edges to the user; `FollowersOf` lists that many, and `Ops.FollowCounts` states how a follow changes it |
| Ops.Signup | twitter.py:93-126 | a user is added exactly when the stripped email contains `@` and `.` and the insert succeeds; the new id is 1 on an empty table and otherwise 1 + the largest id; nothing changes otherwise |
| Ops.LoginAfterSignup | twitter.py:76-126 | the new id typed in decimal, with the password, logs the new user in |
| Ops.MentionRows | twitter.py:600-604 | one mention row per term not refused |
| Ops.MentionRowsAppend | twitter.py:600-604 | one more term adds its row unless refused |
| Ops.MentionRowsDistinct | twitter.py:600-604 | distinct terms give distinct mention rows |
| Ops.ComposeTweet | twitter.py:564-605 | a successful compose appends a tweet whose tid is 1 + the largest tid (1 on an empty table) and that answers nothing, then the mention rows; a failed insert changes nothing |
| Ops.NewTid | twitter.py:574-577 | the new tid is 1 + the largest tid (NULL read as 0): it exceeds every tid and is one more than some existing tid, 1 on an empty table |
| Ops.ComposeMentions | twitter.py:596-604 | the mentions added are exactly the hashtags of the text that were not refused, each once |
| Ops.ReplyToTweet | twitter.py:328-352 | a reply appends a tweet whose tid is 1 + the largest tid (1 on an empty table) and that answers the chosen tweet; no hashtags are recorded; a failed insert changes nothing |
| Ops.ReplyCounts | twitter.py:328-352 | a reply adds one to the chosen tweet's reply count and one to the writer's tweet count |
| Ops.ComposeCounts | twitter.py:564-594 | a compose adds one to the writer's tweet count |
| Ops.WriterOf | twitter.py:359-364 | the writer of `tid` is found exactly when such a tweet exists |
| Ops.WriterOfAppend | twitter.py:359-364 | appending a tweet does not change the writer found for an existing tid |
| Ops.RetweetTweet | twitter.py:355-377 | a retweet of a missing tweet is refused; otherwise a row with the true writer and spam 0 is appended when the insert succeeds |
| Ops.RetweetCounts | twitter.py:355-377 | a retweet adds one to that tweet's retweet count |
| Ops.FollowUser | twitter.py:517-534 | a self-follow and an existing edge are refused; otherwise the edge is appended when the insert succeeds |
| Ops.IsFollowing | twitter.py:521-525 | `SELECT * FROM follows WHERE flwer=? AND flwee=?` finds a row: some edge runs from the follower to the followee; `FollowUser` answers AlreadyFollowing exactly when this holds and the two users differ |
| Ops.FollowCounts | twitter.py:517-534 | a follow adds one to the follower's following count and one to the followee's follower count |
| Ops.AddToFavoriteList | twitter.py:380-412 | no lists, a non-numeric answer and an out-of-range number are told apart, each exactly when it applies; otherwise the chosen list gets the tweet exactly when the insert succeeds |
| Ops.AddToTypedList | twitter.py:389-401 | typing the number shown before list k adds the tweet to list k |
| Ops.Consistent | twitter.py:93-605 | the invariant listed above, the facts the write paths rely on (the id rules at 109-112 and 574-577, the writer lookup at 359-364, the follow guards at 517-524); the `KeepsConsistent` lemmas state that every write keeps it |
| Ops.NewIdKeepsDistinct | twitter.py:109-112 | an id above all ids keeps them distinct |
| Ops.AddTweetKeeps | twitter.py:333-347 | a tweet with a fresh tid keeps tids distinct and keeps retweet writers and mentions valid |
| Ops.SignupKeepsConsistent | twitter.py:93-126 | signup keeps the invariant |
| Ops.ComposeKeepsConsistent | twitter.py:564-605 | compose keeps the invariant, including no duplicate mentions for one tweet |
| Ops.AppendDistinct | twitter.py:600-604 | two distinct row sequences with nothing in common concatenate to distinct rows |
| Ops.ReplyKeepsConsistent | twitter.py:328-352 | reply keeps the invariant |
| Ops.RetweetKeepsConsistent | twitter.py:355-377 | retweet keeps the invariant, since the writer comes from the tweet |
| Ops.FollowKeepsConsistent | twitter.py:517-534 | follow keeps no self-follow and no duplicate edges |
| Ops.AddToListKeepsConsistent | twitter.py:380-412 | adding to a list keeps memberships pointing at existing lists |
| Store.Db.Signup | twitter.py:93-126 | the in-place signup does what `Ops.Signup` describes and keeps the invariant |
| Store.Db.constructor | twitter.py:13 | the connection opened on a database file holds exactly the tables stored in it |
| Store.Db.ComposeTweet | twitter.py:564-605 | the in-place compose computes the new tid, inserts the tweet and, only if that succeeded, walks the hashtag set in some order, doing what `Ops.ComposeTweet` describes for that order; a refused insert changes nothing; the invariant is kept |
| Store.Db.InsertMentions | twitter.py:600-605 | the loop walks every term once and appends a mention row for each term whose insert is not refused; the other tables stay as they were |
| Store.Db.ReplyToTweet | twitter.py:328-352 | does what `Ops.ReplyToTweet` describes and keeps the invariant |
| Store.Db.RetweetTweet | twitter.py:355-377 | does what `Ops.RetweetTweet` describes and keeps the invariant |
| Store.Db.FollowUser | twitter.py:517-534 | does what `Ops.FollowUser` describes and keeps the invariant |
| Store.Db.AddToFavoriteList | twitter.py:380-412 | does what `Ops.AddToFavoriteList` describes and keeps the invariant |
| Client.ShowFollowedTweets | twitter.py:129-189 | the feed is shown in pages of five |
| Client.ListUserTweets | twitter.py:537-561 | the user's tweets are shown in pages of five |
| Client.ListFavoriteLists | twitter.py:658-681 | the loop builds exactly the favourite listing |
| Client.TweetOptionsKeeps | twitter.py:309-325 | the tweet options menu leaves users, follows and lists alone, only appends, and keeps the invariant |
| Client.TweetActionKeeps | twitter.py:309-325 | a single menu action leaves users, follows and lists alone, only appends rows, and keeps the invariant |
| Client.ReplyKeeps | twitter.py:328-352 | a reply, stored or refused, only appends a tweet and keeps the invariant |
| Client.RetweetKeeps | twitter.py:355-377 | a retweet, stored or refused, only appends a retweet row and keeps the invariant |
| Client.AddToListKeeps | twitter.py:380-412 | adding to a favourite list, whatever the answer, only appends an inclusion row and keeps the invariant |
| Client.TweetOptions | twitter.py:289-325 | shows the tweet's retweet and reply counts; the menu loop applies the chosen actions until "4" |
| Client.TweetOptionsEffect | twitter.py:309-325 | the tables after the options menu, each action applied until "4"; `TweetOptionsKeeps` and `TweetOptionsStopsAtBack` state its properties |
| Client.TweetActionEffect | twitter.py:309-325 | one options-menu action on the stripped option: "1" gives `Ops.ReplyToTweet`'s tables, "2" `Ops.RetweetTweet`'s, "3" `Ops.AddToFavoriteList`'s, any other input leaves them unchanged; `TweetActionKeeps` shows it only appends and keeps the invariant |
| Client.TweetOptionsStopsAtBack | twitter.py:322-323 | after "4" nothing more typed is carried out |
| Client.UserDetailsIdle | twitter.py:517-524 | once the edge exists, or when the target is the user, further follows change nothing |
| Client.UserDetailsFollowsOnce | twitter.py:500-514 | however often "follow" is chosen, at most one edge is added, from the user to the target, and nothing else changes |
| Client.ShowUserDetails | twitter.py:465-514 | shows the tweet, following and follower counts and up to three tweets; the menu loop applies follows until "3" |
| Client.UserDetailsEffect | twitter.py:501-516 | the tables after the details menu, each follow applied until "3"; `UserDetailsIdle`, `UserDetailsFollowsOnce` and `UserDetailsStopsAtBack` state its properties |
| Client.UserDetailsStopsAtBack | twitter.py:512-513 | after "3" nothing more typed is carried out |
| Client.SearchTweets | twitter.py:192-286 | returns early without keywords or without matches; otherwise pages through the matching tweets and opens the options of the one selected |
| Client.SearchTweetsEffect | twitter.py:192-286 | the tables after a tweet search: unchanged without keywords, without matches or without a valid selection; otherwise `TweetOptionsEffect` of the chosen result; `Client.SearchTweets` ends in exactly these tables |
| Client.Chosen | twitter.py:276-285 | the entry picked by a typed 1-based number: entry k when the stripped answer is digits whose value k+1 is in range, none otherwise; `ParseSelectionIff` and `SelectionRoundTrip` state it |
| Client.OpenChosenTweet | twitter.py:276-285 | a typed number in range opens the options menu of that tweet; a blank, non-numeric or out-of-range answer changes nothing |
| Client.SearchUsers | twitter.py:415-462 | returns on an empty keyword; otherwise pages through the matching users, shortest name first, and opens the details of the one selected |
| Client.UserSearchRows | twitter.py:425-435 | the users whose lower-cased name contains the stripped, lower-cased keyword, sorted by name length with ties in table order; `UserMatchesIff` and `SortByLengthSpec` state it |
| Client.SearchUsersEffect | twitter.py:415-462 | the tables after a user search: unchanged for an empty keyword or without a valid selection; otherwise `UserDetailsEffect` of the chosen user; `Client.SearchUsers` ends in exactly these tables |
| Client.OpenChosenUser | twitter.py:452-461 | a typed number in range opens the details of that user; a blank, non-numeric or out-of-range answer changes nothing |
| Client.ListFollowers | twitter.py:610-655 | "no one follows you" exactly when the follower count is 0; otherwise pages through the followers and opens the one selected |
| Client.ListFollowersEffect | twitter.py:610-655 | the tables after the follower list: unchanged without a valid selection; otherwise `UserDetailsEffect` of the chosen follower; `Client.ListFollowers` ends in exactly these tables |
| Session.Next | twitter.py:18-53 | logged out: "1" takes the id login returned, "2" the id signup returned, "3" exits and anything else stays logged out; logged in: "6" logs out and anything else keeps the user; exit happens only from the logged-out menu |
| Session.ExitNeedsLogout | twitter.py:33-53 | a logged-in session cannot exit without logging out first |
| Session.SignupResult | twitter.py:28-31 | the id signup returns on the tables of that pass |
| Session.LoggedOutTables | twitter.py:19-37 | only a signup writes on the logged-out menu |
| Session.LoggedInTables | twitter.py:38-53 | each menu entry's effect on the tables |
| Session.StepTables | twitter.py:18-53 | the tables after one pass, by whether someone is logged in |
| Session.StepTransition | twitter.py:18-53 | the transition of one pass on the tables before it |
| Session.Pass | twitter.py:18-53 | the loop state after one more pass; once exited, nothing more happens |
| Session.RunState | twitter.py:18-53 | the loop state after a sequence of passes, computed pass by pass |
| Session.IsTrace | twitter.py:18-53 | a sequence of loop states that starts logged out and moves one pass at a time |
| Session.TraceFinal | twitter.py:18-53 | the last state of any trace is the state `RunState` computes for the same passes, so the loop ends in exactly that state |
| Session.WalksHashtags | twitter.py:600 | each pass's order walks the hashtags of its compose text |
| Session.RunStopsAtExit | twitter.py:33-35 | once the loop has exited, further input changes nothing |
| Session.Step | twitter.py:18-53 | one pass follows `Next` on the tables before it and leaves exactly the tables `StepTables` gives; a logged-in id is always an existing user; rows are only appended; users change only by signup; the invariant is kept |
| Session.LoggedOutStep | twitter.py:19-37 | the transition `Next` gives for what login and signup return; "2" leaves exactly the tables `Ops.Signup` gives and every other choice leaves them unchanged; a session id names an existing user; the invariant is kept |
| Session.LoggedInStep | twitter.py:38-53 | "1" leaves the tables of the tweet search, "2" those of the user search, "3" those of `Ops.ComposeTweet` for the order in which the hashtags were walked, "4" those of the follower list, and every other choice leaves them unchanged; users are never changed and the invariant is kept |
| Session.Run | twitter.py:18-53 | the loop goes through a trace of states, each one pass on from the one before, that ends in its final tables and session; it runs every pass unless it exits; compose in each pass walks that pass's hashtags; the current id, if any, is an existing user; exiting leaves no one logged in; rows were only appended and the invariant still holds |
| Session.Advance | twitter.py:18-53 | one turn of the loop: a pass that extends the trace by one state, keeps the logged-in id an existing user, only appends rows and keeps the invariant; it exits only from the start menu |
| Finding.IntString | twitter.py:122 | `str` on an integer gives digits exactly for non-negative numbers |
| Finding.StoredIdOfString | twitter.py:528-529 | storing the decimal string of an id in an integer column stores the id |
| Finding.SignupReturnAsWritten | twitter.py:122-125 | signup hands back the new id as a string |
| Finding.FollowUserAsWritten | twitter.py:517-534 | the self-follow guard fires only for an integer equal to the target |
| Finding.AsWrittenAgreesAfterLogin | twitter.py:517-534 | with a login id, the code as written and `Ops.FollowUser` agree |
| Finding.SelfFollowAfterSignup | twitter.py:517-534 | right after signup, following oneself is accepted and breaks the no-self-follow invariant |
| Finding.CorrectedRefusesSelfFollow | twitter.py:517-520 | with the id kept as an integer, the same follow is refused and the invariant holds |

## Left out

- SQLite itself is not modelled. That covers the connection, `PRAGMA foreign_keys`, `commit` and `rollback`, and the SQL text. Each statement is modelled by its effect on in-memory tables. A storage failure is the `accepted` flag: false means "no change".
- `ORDER BY tdate DESC, ttime DESC` is left out. Dates are opaque strings, so results keep table order. Paging, selection and `LIMIT 3` act on that order.
- Console I/O, `getpass` and the clock are inputs. Each screen receives its typed lines, and the date and time, as parameters.
- Input that runs out is read as "stop" or "back". The program itself would raise `EOFError`.
- Only ASCII is modelled. This applies to the `\w`, `lower`, `strip` and `isdigit` functions, and to SQLite `lower()`. `LIKE` is plain substring search: `%` and `_` inside a keyword, which are wildcards there, are not modelled.
- Text.Strip: stripping covers ASCII whitespace only.
- Queries.Login: matching `usr = ?` on a typed id compares it as a decimal number. Any typed id other than plain decimal digits is refused, including the signed, fractional or exponent forms (`-5`, `+5`, `5.0`, `5e0`) that SQLite's numeric affinity would convert and match.
- Queries.Feed: the `ttype` label column and the `NULL` time of retweet rows are kept, but their printing is left out.
- Client.ShowFollowedTweets: the feed shown after login or signup is computed but not returned by `Session.Step`.
- Session.Step / Session.Run: the session id after signup is kept as the integer, not the string signup returns (see Findings).
- The `if __name__` entry point and the argument check for the database path are not modelled.

## Findings

| source | as written | input that shows it | evidently intended | confidence | as-written member | corrected member |
|---|---|---|---|---|---|---|
| twitter.py:517-520 | signup returns `str(new_id)`, which becomes the session id; `follow_user` compares it with the integer id of the user picked, and a Python string never equals an integer, so the self-follow guard never fires after a signup | sign up with a valid email, get id n, search users for your own name, select yourself, choose "1": the edge (n, n) is inserted | the session id is the integer id, so the guard refuses following oneself | not executed | Finding.SelfFollowAfterSignup | Finding.CorrectedRefusesSelfFollow |

=== FILE: client.dfy ===
/** The client's screens: the feed, tweet search with the options menu of
    a chosen tweet, user search with the details view of a chosen user,
    the followers listing and the favourite lists. What the user types on
    a screen is a value (`SearchForm`, ...); the effect of a screen on the
    tables is a function (`SearchTweetsEffect`, ...) that the method
    performing it is proved to follow. */
module Client {
  import opened Text
  import opened Schema
  import opened Queries
  import opened Paging
  import Ops
  import opened Store

  // ---------------------------------------------------------------------
  // What the user types
  // ---------------------------------------------------------------------

  /** One pass through the options menu of a tweet: the option typed and
      what the chosen action then reads (reply text, the list number); the
      date and time stand for the clock and `accepted` for the storage. */
  datatype TweetAction = TweetAction(option: string, text: string, date: string, time: string,
                                     listAnswer: string, accepted: bool)

  /** One pass through the options menu of a user's details: the option
      typed, and for "see more tweets" the answers to "Show more?". */
  datatype UserAction = UserAction(option: string, date: string, accepted: bool, answers: seq<string>)

  datatype SearchForm = SearchForm(line: string, answers: seq<string>, selection: string, actions: seq<TweetAction>)

  datatype UserSearchForm = UserSearchForm(keyword: string, answers: seq<string>, selection: string, actions: seq<UserAction>)

  datatype FollowersForm = FollowersForm(answers: seq<string>, selection: string, actions: seq<UserAction>)

  /** The entry picked by a typed 1-based number, if any. */
  function Chosen<T>(rows: seq<T>, selection: string): Option<T> {
    match ParseSelection(selection, |rows|)
    case Selected(k) => Some(rows[k])
    case _ => None
  }

  /** No user is removed or changed, no row of any table is, and the
      consistency facts survive. */
  predicate Keeps(t: Tables, e: Tables) {
    Extends(t, e) && e.users == t.users && (Ops.Consistent(t) ==> Ops.Consistent(e))
  }

  lemma KeepsTransitive(a: Tables, b: Tables, c: Tables)
    requires Keeps(a, b) && Keeps(b, c)
    ensures Keeps(a, c)
  {
    ExtendsTransitive(a, b, c);
  }

  // ---------------------------------------------------------------------
  // Listings without a menu
  // ---------------------------------------------------------------------

  /** `show_followed_tweets`: the feed, five rows a page. */
  method ShowFollowedTweets(db: Db, u: int, answers: seq<string>) returns (pages: seq<seq<FeedRow>>)
    ensures pages == Pages(Feed(db.Snapshot(), u), Replies(answers))
  {
    var results := Feed(db.Snapshot(), u);
    var prompts;
    pages, prompts := Paginate(results, answers);
  }

  /** `list_user_tweets`: the tweets of `user`, five a page. */
  method ListUserTweets(db: Db, user: int, answers: seq<string>) returns (pages: seq<seq<Tweet>>)
    ensures pages == Pages(UserTweets(db.Snapshot(), user), Replies(answers))
  {
    var results := UserTweets(db.Snapshot(), user);
    var prompts;
    pages, prompts := Paginate(results, answers);
  }

  /** `list_favorite_lists`: each list of the user with the tids in it. */
  method ListFavoriteLists(db: Db, u: int) returns (listing: seq<(string, seq<int>)>)
    ensures listing == FavoriteListing(db.Snapshot(), u)
  {
    var t := db.Snapshot();
    var names := OwnedListNames(t, u);
    listing := [];
    var i := 0;
    while i < |names|
      invariant 0 <= i <= |names|
      invariant listing == FavoriteListing(t, u)[..i]
      decreases |names| - i
    {
      listing := listing + [(names[i], ListTids(t, u, names[i]))];
      i := i + 1;
    }
  }

  // ---------------------------------------------------------------------
  // The options menu of a tweet
  // ---------------------------------------------------------------------

  /** The tables after one action of the options menu of `tid`: "1"
      replies, "2" retweets, "3" adds to a favourite list; other input
      changes nothing. */
  function TweetActionEffect(t: Tables, u: int, tid: int, a: TweetAction): Tables {
    var opt := Strip(a.option);
    if opt == "1" then Ops.ReplyToTweet(t, u, tid, a.text, a.date, a.time, a.accepted).0
    else if opt == "2" then Ops.RetweetTweet(t, u, tid, a.date, a.accepted).0
    else if opt == "3" then Ops.AddToFavoriteList(t, u, tid, a.listAnswer, a.accepted).0
    else t
  }

  /** The tables after the options menu of `tid`: each action is carried
      out until "4" (back) or until the input runs out. */
  function TweetOptionsEffect(t: Tables, u: int, tid: int, actions: seq<TweetAction>): Tables
    decreases |actions|
  {
    if actions == [] || Strip(actions[0].option) == "4" then t
    else TweetOptionsEffect(TweetActionEffect(t, u, tid, actions[0]), u, tid, actions[1..])
  }

  /** "4" ends the options menu: whatever is typed after it is not
      carried out. */
  lemma {:induction false} TweetOptionsStopsAtBack(t: Tables, u: int, tid: int, actions: seq<TweetAction>,
                                                   back: TweetAction, more: seq<TweetAction>)
    requires forall k | 0 <= k < |actions| :: Strip(actions[k].option) != "4"
    requires Strip(back.option) == "4"
    ensures TweetOptionsEffect(t, u, tid, actions + [back] + more) == TweetOptionsEffect(t, u, tid, actions)
    decreases |actions|
  {
    var all := actions + [back] + more;
    if actions == [] {
      assert all[0] == back;
    } else {
      assert all[0] == actions[0];
      assert all[1..] == actions[1..] + [back] + more;
      TweetOptionsStopsAtBack(TweetActionEffect(t, u, tid, actions[0]), u, tid, actions[1..], back, more);
    }
  }

  /** One action of the options menu only appends a tweet, a retweet or a
      list membership. */
  lemma TweetActionKeeps(t: Tables, u: int, tid: int, a: TweetAction)
    ensures var e := TweetActionEffect(t, u, tid, a);
      Keeps(t, e) && e.follows == t.follows && e.lists == t.lists
  {
    var opt := Strip(a.option);
    if opt == "1" {
      ReplyKeeps(t, u, tid, a);
    } else if opt == "2" {
      RetweetKeeps(t, u, tid, a);
    } else if opt == "3" {
      AddToListKeeps(t, u, tid, a);
    }
  }

  lemma ReplyKeeps(t: Tables, u: int, tid: int, a: TweetAction)
    ensures var e := Ops.ReplyToTweet(t, u, tid, a.text, a.date, a.time, a.accepted).0;
      Keeps(t, e) && e.follows == t.follows && e.lists == t.lists
  {
    if Ops.Consistent(t) {
      Ops.ReplyKeepsConsistent(t, u, tid, a.text, a.date, a.time, a.accepted);
    }
  }

  lemma RetweetKeeps(t: Tables, u: int, tid: int, a: TweetAction)
    ensures var e := Ops.RetweetTweet(t, u, tid, a.date, a.accepted).0;
      Keeps(t, e) && e.follows == t.follows && e.lists == t.lists
  {
    if Ops.Consistent(t) {
      Ops.RetweetKeepsConsistent(t, u, tid, a.date, a.accepted);
    }
  }

  lemma AddToListKeeps(t: Tables, u: int, tid: int, a: TweetAction)
    ensures var e := Ops.AddToFavoriteList(t, u, tid, a.listAnswer, a.accepted).0;
      Keeps(t, e) && e.follows == t.follows && e.lists == t.lists
  {
    if Ops.Consistent(t) {
      Ops.AddToListKeepsConsistent(t, u, tid, a.listAnswer, a.accepted);
    }
  }

  /** The options menu only appends tweets, retweets and list memberships:
      users, follows and lists stay as they were. */
  lemma {:induction false} TweetOptionsKeeps(t: Tables, u: int, tid: int, actions: seq<TweetAction>)
    ensures var e := TweetOptionsEffect(t, u, tid, actions);
      Keeps(t, e) && e.follows == t.follows && e.lists == t.lists
    decreases |actions|
  {
    if actions != [] && Strip(actions[0].option) != "4" {
      var t1 := TweetActionEffect(t, u, tid, actions[0]);
      TweetActionKeeps(t, u, tid, actions[0]);
      TweetOptionsKeeps(t1, u, tid, actions[1..]);
      KeepsTransitive(t, t1, TweetOptionsEffect(t1, u, tid, actions[1..]));
    }
  }

  /** `tweet_options`: shows the retweet and reply counts of `tid`, then
      runs the menu. */
  method TweetOptions(db: Db, u: int, tid: int, actions: seq<TweetAction>) returns (retweets: nat, replies: nat)
    modifies db
    ensures retweets == RetweetCount(old(db.Snapshot()), tid)
    ensures replies == ReplyCount(old(db.Snapshot()), tid)
    ensures db.Snapshot() == TweetOptionsEffect(old(db.Snapshot()), u, tid, actions)
    ensures Keeps(old(db.Snapshot()), db.Snapshot())
  {
    retweets := RetweetCount(db.Snapshot(), tid);
    replies := ReplyCount(db.Snapshot(), tid);
    var i := 0;
    while i < |actions|
      invariant 0 <= i <= |actions|
      invariant TweetOptionsEffect(db.Snapshot(), u, tid, actions[i..]) == TweetOptionsEffect(old(db.Snapshot()), u, tid, actions)
      decreases |actions| - i
    {
      var a := actions[i];
      var opt := Strip(a.option);
      assert actions[i..][0] == a && actions[i..][1..] == actions[i + 1..];
      if opt == "1" {
        var reply := db.ReplyToTweet(u, tid, a.text, a.date, a.time, a.accepted);
      } else if opt == "2" {
        var retweeted := db.RetweetTweet(u, tid, a.date, a.accepted);
      } else if opt == "3" {
        var added := db.AddToFavoriteList(u, tid, a.listAnswer, a.accepted);
      } else if opt == "4" {
        break;
      }
      i := i + 1;
    }
    TweetOptionsKeeps(old(db.Snapshot()), u, tid, actions);
  }

  // ---------------------------------------------------------------------
  // The details view of a user
  // ---------------------------------------------------------------------

  /** The tables after the details menu of `target`: "1" follows, "2" only
      lists tweets, "3" goes back. */
  function UserDetailsEffect(t: Tables, u: int, target: int, actions: seq<UserAction>): Tables
    decreases |actions|
  {
    if actions == [] then t
    else
      var a := actions[0];
      var opt := Strip(a.option);
      if opt == "3" then t
      else
        var t1 := if opt == "1" then Ops.FollowUser(t, u, target, a.date, a.accepted).0 else t;
        UserDetailsEffect(t1, u, target, actions[1..])
  }

  /** "3" ends the details menu: whatever is typed after it is not carried
      out. */
  lemma {:induction false} UserDetailsStopsAtBack(t: Tables, u: int, target: int, actions: seq<UserAction>,
                                                  back: UserAction, more: seq<UserAction>)
    requires forall k | 0 <= k < |actions| :: Strip(actions[k].option) != "3"
    requires Strip(back.option) == "3"
    ensures UserDetailsEffect(t, u, target, actions + [back] + more) == UserDetailsEffect(t, u, target, actions)
    decreases |actions|
  {
    var all := actions + [back] + more;
    if actions == [] {
      assert all[0] == back;
    } else {
      var a := actions[0];
      var t1 := if Strip(a.option) == "1" then Ops.FollowUser(t, u, target, a.date, a.accepted).0 else t;
      assert all[0] == a;
      assert all[1..] == actions[1..] + [back] + more;
      UserDetailsStopsAtBack(t1, u, target, actions[1..], back, more);
    }
  }

  /** Once the edge exists (or the target is the user), the details menu
      changes nothing. */
  lemma {:induction false} UserDetailsIdle(t: Tables, u: int, target: int, actions: seq<UserAction>)
    requires u == target || Ops.IsFollowing(t, u, target)
    ensures UserDetailsEffect(t, u, target, actions) == t
    decreases |actions|
  {
    if actions != [] {
      UserDetailsIdle(t, u, target, actions[1..]);
    }
  }

  /** However often "follow" is chosen, at most one edge is added, and it
      is the edge from the user to the target; nothing else changes. */
  lemma {:induction false} UserDetailsFollowsOnce(t: Tables, u: int, target: int, actions: seq<UserAction>)
    ensures var e := UserDetailsEffect(t, u, target, actions);
      e == t.(follows := e.follows) &&
      t.follows <= e.follows && |e.follows| <= |t.follows| + 1 &&
      (forall k | |t.follows| <= k < |e.follows| :: e.follows[k].flwer == u && e.follows[k].flwee == target) &&
      Keeps(t, e)
    decreases |actions|
  {
    if actions != [] && Strip(actions[0].option) != "3" {
      var a := actions[0];
      if Strip(a.option) == "1" {
        var (t1, outcome) := Ops.FollowUser(t, u, target, a.date, a.accepted);
        if Ops.Consistent(t) {
          Ops.FollowKeepsConsistent(t, u, target, a.date, a.accepted);
        }
        if outcome == Ops.Followed {
          assert t1.follows[|t.follows|] == Follow(u, target, a.date);
          assert Ops.IsFollowing(t1, u, target);
          UserDetailsIdle(t1, u, target, actions[1..]);
        } else {
          UserDetailsFollowsOnce(t, u, target, actions[1..]);
        }
      } else {
        UserDetailsFollowsOnce(t, u, target, actions[1..]);
      }
    }
  }

  /** The counts and recent tweets the details view shows. */
  datatype Details = Details(tweets: nat, following: nat, followers: nat, recent: seq<Tweet>)

  /** `show_user_details`. */
  method ShowUserDetails(db: Db, u: int, target: int, actions: seq<UserAction>) returns (details: Details)
    modifies db
    ensures details == Details(TweetCount(old(db.Snapshot()), target), FollowingCount(old(db.Snapshot()), target),
                               FollowerCount(old(db.Snapshot()), target), RecentTweets(old(db.Snapshot()), target))
    ensures db.Snapshot() == UserDetailsEffect(old(db.Snapshot()), u, target, actions)
    ensures Keeps(old(db.Snapshot()), db.Snapshot())
  {
    var t := db.Snapshot();
    details := Details(TweetCount(t, target), FollowingCount(t, target), FollowerCount(t, target), RecentTweets(t, target));
    var i := 0;
    while i < |actions|
      invariant 0 <= i <= |actions|
      invariant UserDetailsEffect(db.Snapshot(), u, target, actions[i..]) == UserDetailsEffect(t, u, target, actions)
      decreases |actions| - i
    {
      var a := actions[i];
      var opt := Strip(a.option);
      assert actions[i..][0] == a && actions[i..][1..] == actions[i + 1..];
      if opt == "1" {
        var followed := db.FollowUser(u, target, a.date, a.accepted);
      } else if opt == "2" {
        var shown := ListUserTweets(db, target, a.answers);
      } else if opt == "3" {
        break;
      }
      i := i + 1;
    }
    UserDetailsFollowsOnce(t, u, target, actions);
  }

  // ---------------------------------------------------------------------
  // Tweet search
  // ---------------------------------------------------------------------

  datatype SearchOutcome = NoKeywords | NoMatches | Results(pages: seq<seq<Tweet>>, chosen: Option<int>)

  /** The tables after a tweet search: only the options menu of a chosen
      tweet changes anything. */
  function SearchTweetsEffect(t: Tables, u: int, form: SearchForm): Tables {
    var keywords := ParseKeywords(form.line);
    if keywords == [] then t
    else
      var matched := AllMatches(t, keywords);
      if matched == {} then t
      else
        match Chosen(SearchResults(t.tweets, matched), form.selection)
        case None => t
        case Some(tw) => TweetOptionsEffect(t, u, tw.tid, form.actions)
  }

  /** `search_tweets`: parses the keywords, collects the matching tids,
      pages through the matching tweets and opens the options of the one
      whose number is typed. */
  method SearchTweets(db: Db, u: int, form: SearchForm) returns (outcome: SearchOutcome)
    modifies db
    ensures outcome == NoKeywords <==> ParseKeywords(form.line) == []
    ensures outcome == NoMatches <==>
      ParseKeywords(form.line) != [] && AllMatches(old(db.Snapshot()), ParseKeywords(form.line)) == {}
    ensures outcome.Results? ==>
      var results := SearchResults(old(db.Snapshot()).tweets, AllMatches(old(db.Snapshot()), ParseKeywords(form.line)));
      outcome.pages == Pages(results, Replies(form.answers)) &&
      outcome.chosen == (match Chosen(results, form.selection) case None => None case Some(tw) => Some(tw.tid))
    ensures db.Snapshot() == SearchTweetsEffect(old(db.Snapshot()), u, form)
    ensures Keeps(old(db.Snapshot()), db.Snapshot())
  {
    var t := db.Snapshot();
    var keywords := ParseKeywords(form.line);
    if keywords == [] {
      return NoKeywords;
    }
    var matched := MatchTweets(t, keywords);
    if matched == {} {
      return NoMatches;
    }
    var results := SearchResults(t.tweets, matched);
    var pages, prompts := Paginate(results, form.answers);
    var chosen := OpenChosenTweet(db, u, results, form.selection, form.actions);
    outcome := Results(pages, chosen);
  }

  /** The prompt after the result pages: the tweet whose number is typed
      has its options menu opened; anything else returns to the menu. */
  method OpenChosenTweet(db: Db, u: int, results: seq<Tweet>, selection: string, actions: seq<TweetAction>)
    returns (chosen: Option<int>)
    modifies db
    ensures chosen == (match Chosen(results, selection) case None => None case Some(tw) => Some(tw.tid))
    ensures db.Snapshot() == (match Chosen(results, selection)
                              case None => old(db.Snapshot())
                              case Some(tw) => TweetOptionsEffect(old(db.Snapshot()), u, tw.tid, actions))
    ensures Keeps(old(db.Snapshot()), db.Snapshot())
  {
    chosen := None;
    if results != [] {
      var k := ParseSelection(selection, |results|);
      if k.Selected? {
        var tid := results[k.index].tid;
        chosen := Some(tid);
        var retweets, replies := TweetOptions(db, u, tid, actions);
      }
    }
  }

  // ---------------------------------------------------------------------
  // User search
  // ---------------------------------------------------------------------

  datatype UserSearchOutcome = NoKeyword | Users(pages: seq<seq<UserRow>>, chosen: Option<int>)

  /** The rows user search shows for a typed keyword: the matching users,
      shortest names first. */
  function UserSearchRows(t: Tables, keyword: string): seq<UserRow> {
    SortByLength(UserMatches(t.users, Lower(Strip(keyword))))
  }

  /** The tables after a user search: only the details screen of a
      chosen user changes anything. */
  function SearchUsersEffect(t: Tables, u: int, form: UserSearchForm): Tables {
    if Lower(Strip(form.keyword)) == [] then t
    else
      match Chosen(UserSearchRows(t, form.keyword), form.selection)
      case None => t
      case Some(row) => UserDetailsEffect(t, u, row.usr, form.actions)
  }

  /** `search_users`: the keyword is stripped and lower-cased; the users
      whose names contain it are sorted by name length and paged; typing a
      number opens that user's details. */
  method SearchUsers(db: Db, u: int, form: UserSearchForm) returns (outcome: UserSearchOutcome)
    modifies db
    ensures outcome == NoKeyword <==> Strip(form.keyword) == []
    ensures outcome.Users? ==>
      var rows := UserSearchRows(old(db.Snapshot()), form.keyword);
      outcome.pages == Pages(rows, Replies(form.answers)) &&
      outcome.chosen == (match Chosen(rows, form.selection) case None => None case Some(row) => Some(row.usr))
    ensures db.Snapshot() == SearchUsersEffect(old(db.Snapshot()), u, form)
    ensures Keeps(old(db.Snapshot()), db.Snapshot())
  {
    var t := db.Snapshot();
    var keyword := Lower(Strip(form.keyword));
    if keyword == [] {
      return NoKeyword;
    }
    var rows := UserMatches(t.users, keyword);
    rows := SortByLength(rows);
    var pages, prompts := Paginate(rows, form.answers);
    var chosen := OpenChosenUser(db, u, rows, form.selection, form.actions);
    outcome := Users(pages, chosen);
  }

  /** The prompt after the user pages: the user whose number is typed has
      their details view opened; anything else returns to the menu. */
  method OpenChosenUser(db: Db, u: int, rows: seq<UserRow>, selection: string, actions: seq<UserAction>)
    returns (chosen: Option<int>)
    modifies db
    ensures chosen == (match Chosen(rows, selection) case None => None case Some(row) => Some(row.usr))
    ensures db.Snapshot() == (match Chosen(rows, selection)
                              case None => old(db.Snapshot())
                              case Some(row) => UserDetailsEffect(old(db.Snapshot()), u, row.usr, actions))
    ensures Keeps(old(db.Snapshot()), db.Snapshot())
  {
    chosen := None;
    if rows != [] {
      var k := ParseSelection(selection, |rows|);
      if k.Selected? {
        var target := rows[k.index].usr;
        chosen := Some(target);
        var details := ShowUserDetails(db, u, target, actions);
      }
    }
  }

  // ---------------------------------------------------------------------
  // Followers
  // ---------------------------------------------------------------------

  datatype FollowersOutcome = NoFollowers | FollowerPages(pages: seq<seq<int>>, chosen: Option<int>)

  /** The tables after the follower list: only the details screen of a
      chosen follower changes anything. */
  function ListFollowersEffect(t: Tables, u: int, form: FollowersForm): Tables {
    match Chosen(FollowersOf(t, u), form.selection)
    case None => t
    case Some(v) => UserDetailsEffect(t, u, v, form.actions)
  }

  /** `list_followers`: the users following `u`, paged; typing a number
      opens that follower's details. */
  method ListFollowers(db: Db, u: int, form: FollowersForm) returns (outcome: FollowersOutcome)
    modifies db
    ensures outcome == NoFollowers <==> FollowerCount(old(db.Snapshot()), u) == 0
    ensures outcome.FollowerPages? ==>
      outcome.pages == Pages(FollowersOf(old(db.Snapshot()), u), Replies(form.answers)) &&
      outcome.chosen == Chosen(FollowersOf(old(db.Snapshot()), u), form.selection)
    ensures db.Snapshot() == ListFollowersEffect(old(db.Snapshot()), u, form)
    ensures Keeps(old(db.Snapshot()), db.Snapshot())
  {
    var t := db.Snapshot();
    var followers := FollowersOf(t, u);
    if followers == [] {
      return NoFollowers;
    }
    var pages, prompts := Paginate(followers, form.answers);
    var chosen := None;
    var selection := ParseSelection(form.selection, |followers|);
    if selection.Selected? {
      var v := followers[selection.index];
      chosen := Some(v);
      var details := ShowUserDetails(db, u, v, form.actions);
    }
    outcome := FollowerPages(pages, chosen);
  }
}

=== FILE: finding.dfy ===
/** The session id as the main loop really holds it. Login returns the
    integer read from the users table, but signup returns the new id
    converted to a string, and follow compares that value with the integer
    id of the user to follow. In Python a string never equals an integer,
    so after a signup the self-follow check never fires; SQLite converts
    the string back to an integer when it stores the edge. The rest of the
    model keeps the session id an integer, which is what the code evidently
    intends. */
module Finding {
  import opened Text
  import opened Schema
  import Ops

  /** A Python value held in the session's current-user variable. */
  datatype PyValue = PyInt(i: int) | PyStr(s: string)

  /** Python's `==`: an int and a str are never equal. */
  predicate PyEquals(a: PyValue, b: PyValue) {
    match (a, b)
    case (PyInt(x), PyInt(y)) => x == y
    case (PyStr(x), PyStr(y)) => x == y
    case _ => false
  }

  /** Python's `str` on an integer. */
  function IntString(n: int): (s: string)
    ensures s != [] && (IsDigits(s) <==> n >= 0)
  {
    if n >= 0 then DecimalString(n)
    else
      var s := "-" + DecimalString(-n);
      assert s[0] == '-' && !IsDigit(s[0]);
      s
  }

  /** The integer SQLite stores in an integer column for a bound value:
      text that reads as a (possibly negative) decimal integer is
      converted; other text is not an integer. */
  function StoredId(v: PyValue): Option<int> {
    match v
    case PyInt(i) => Some(i)
    case PyStr(s) =>
      if IsDigits(s) then Some(DigitsValue(s))
      else if |s| > 1 && s[0] == '-' && IsDigits(s[1..]) then Some(-(DigitsValue(s[1..]) as int))
      else None
  }

  /** Storing the string of an id stores the id itself. */
  lemma StoredIdOfString(n: int)
    ensures StoredId(PyStr(IntString(n))) == Some(n)
  {
    if n < 0 {
      var s := IntString(n);
      assert s[1..] == DecimalString(-n);
    }
  }

  /** What signup hands back to the main loop, as written: the new id
      converted with `str`. */
  function SignupReturnAsWritten(t: Tables, name: string, email: string, phone: string, pwd: string, accepted: bool)
    : (r: Option<PyValue>)
    ensures r.Some? <==> Ops.Signup(t, name, email, phone, pwd, accepted).1.Some?
    ensures r.Some? ==> r.value.PyStr? && StoredId(r.value) == Ops.Signup(t, name, email, phone, pwd, accepted).1
  {
    match Ops.Signup(t, name, email, phone, pwd, accepted).1
    case None => None
    case Some(id) =>
      StoredIdOfString(id);
      Some(PyStr(IntString(id)))
  }

  /** `follow_user` as written, on the session value the main loop holds:
      the self-follow guard uses Python equality; the existence query and
      the insert see the stored integer. */
  function FollowUserAsWritten(t: Tables, current: PyValue, target: int, date: string, accepted: bool)
    : (r: (Tables, Ops.FollowOutcome))
    requires StoredId(current).Some?
    ensures r.1 == Ops.SelfFollow <==> current == PyInt(target)
    ensures r.1 == Ops.Followed <==>
      current != PyInt(target) && !Ops.IsFollowing(t, StoredId(current).value, target) && accepted
    ensures r.1 != Ops.Followed ==> r.0 == t
    ensures r.1 == Ops.Followed ==> r.0 == t.(follows := t.follows + [Follow(StoredId(current).value, target, date)])
  {
    if PyEquals(current, PyInt(target)) then (t, Ops.SelfFollow)
    else
      var u := StoredId(current).value;
      if Ops.IsFollowing(t, u, target) then (t, Ops.AlreadyFollowing)
      else if !accepted then (t, Ops.FollowRefused)
      else (t.(follows := t.follows + [Follow(u, target, date)]), Ops.Followed)
  }

  /** With an id that came from login (an integer), the code as written
      behaves as the corrected `Ops.FollowUser`. */
  lemma AsWrittenAgreesAfterLogin(t: Tables, u: int, target: int, date: string, accepted: bool)
    ensures FollowUserAsWritten(t, PyInt(u), target, date, accepted) == Ops.FollowUser(t, u, target, date, accepted)
  {
  }

  /** The discrepancy: a user who has just signed up and picks themself in
      user search is made to follow themself, and the tables stop being
      consistent (no self-follow edges). */
  lemma SelfFollowAfterSignup(t: Tables, name: string, email: string, phone: string, pwd: string, date: string)
    requires Ops.Consistent(t)
    requires ValidEmail(Strip(email))
    ensures var (t1, id) := Ops.Signup(t, name, email, phone, pwd, true);
      var current := SignupReturnAsWritten(t, name, email, phone, pwd, true).value;
      var (t2, outcome) := FollowUserAsWritten(t1, current, id.value, date, true);
      outcome == Ops.Followed &&
      t2.follows == t1.follows + [Follow(id.value, id.value, date)] &&
      !Ops.Consistent(t2)
  {
    var (t1, id) := Ops.Signup(t, name, email, phone, pwd, true);
    var n := id.value;
    Ops.SignupKeepsConsistent(t, name, email, phone, pwd, true);
    assert !Ops.IsFollowing(t1, n, n) by {
      assert t1.follows == t.follows;
      assert forall f | f in t1.follows :: f.flwer != f.flwee;
    }
    var t2 := FollowUserAsWritten(t1, SignupReturnAsWritten(t, name, email, phone, pwd, true).value, n, date, true).0;
    assert t2.follows[|t2.follows| - 1] == Follow(n, n, date);
  }

  /** The corrected rule refuses the same follow: with the integer id the
      guard fires, the tables are unchanged and stay consistent. */
  lemma CorrectedRefusesSelfFollow(t: Tables, name: string, email: string, phone: string, pwd: string, date: string)
    requires Ops.Consistent(t)
    requires ValidEmail(Strip(email))
    ensures var (t1, id) := Ops.Signup(t, name, email, phone, pwd, true);
      var (t2, outcome) := Ops.FollowUser(t1, id.value, id.value, date, true);
      outcome == Ops.SelfFollow && t2 == t1 && Ops.Consistent(t2)
  {
    Ops.SignupKeepsConsistent(t, name, email, phone, pwd, true);
  }
}

=== FILE: ops.dfy ===
/** The six operations that change the database, as functions from the
    tables before to the tables after, paired with what the client reports.
    The identifier rule, the guards and the rows appended are those of
    twitter.py; `accepted` says whether the storage accepts the insert
    (when it is false the statement fails and is rolled back), and dates
    and times are parameters. `Consistent` collects the facts about the
    tables that every operation keeps. */
module Ops {
  import opened Text
  import opened Schema
  import opened Queries

  // ---------------------------------------------------------------------
  // Signup
  // ---------------------------------------------------------------------

  /** Name, email and phone are stripped; the email must contain `@` and
      `.`; the new user gets 1 + the largest user id (1 for the first). */
  function Signup(t: Tables, name: string, email: string, phone: string, pwd: string, accepted: bool): (r: (Tables, Option<int>))
    ensures r.1.Some? <==> ValidEmail(Strip(email)) && accepted
    ensures r.1.None? ==> r.0 == t
    ensures r.1.Some? ==>
      (forall u | u in t.users :: u.usr < r.1.value) &&
      (t.users == [] ==> r.1.value == 1) &&
      (t.users != [] ==> exists u | u in t.users :: u.usr == r.1.value - 1) &&
      r.0 == t.(users := t.users + [User(r.1.value, Strip(name), Strip(email), Strip(phone), pwd)])
  {
    var e := Strip(email);
    if !ValidEmail(e) || !accepted then (t, None)
    else
      var ids := UserIds(t.users);
      var id := NextId(ids);
      assert forall u | u in t.users :: u.usr in ids by {
        forall u | u in t.users ensures u.usr in ids {
          var k :| 0 <= k < |t.users| && t.users[k] == u;
          assert ids[k] == u.usr;
        }
      }
      (t.(users := t.users + [User(id, Strip(name), e, Strip(phone), pwd)]), Some(id))
  }

  /** A user who has just signed up can log in with the id they were
      given, typed in decimal, and their password. */
  lemma LoginAfterSignup(t: Tables, name: string, email: string, phone: string, pwd: string, accepted: bool)
    requires Signup(t, name, email, phone, pwd, accepted).1.Some?
    requires Signup(t, name, email, phone, pwd, accepted).1.value >= 0
    ensures var (t', id) := Signup(t, name, email, phone, pwd, accepted);
      Login(t'.users, DecimalString(id.value), pwd) == id
  {
    var (t', id) := Signup(t, name, email, phone, pwd, accepted);
    var key := DecimalString(id.value);
    StripOfStripped(key);
    var u := t'.users[|t'.users| - 1];
    assert u in t'.users && Credentials(u, Strip(key), pwd);
  }

  // ---------------------------------------------------------------------
  // Tweets and replies
  // ---------------------------------------------------------------------

  /** The mention rows compose appends for the terms in `order`, skipping
      those whose insert the storage refuses (the failure is ignored). */
  function MentionRows(tid: int, order: seq<string>, rejected: set<string>): (ms: seq<Mention>)
    ensures forall m :: m in ms <==> m.tid == tid && m.term in order && m.term !in rejected
    decreases |order|
  {
    if order == [] then []
    else
      (if order[0] in rejected then [] else [Mention(tid, order[0])]) + MentionRows(tid, order[1..], rejected)
  }

  lemma {:induction false} MentionRowsAppend(tid: int, order: seq<string>, h: string, rejected: set<string>)
    ensures MentionRows(tid, order + [h], rejected) ==
      MentionRows(tid, order, rejected) + (if h in rejected then [] else [Mention(tid, h)])
    decreases |order|
  {
    if order == [] {
      assert [h][1..] == [];
    } else {
      assert (order + [h])[1..] == order[1..] + [h];
      MentionRowsAppend(tid, order[1..], h, rejected);
    }
  }

  lemma {:induction false} MentionRowsDistinct(tid: int, order: seq<string>, rejected: set<string>)
    requires NoDups(order)
    ensures NoDups(MentionRows(tid, order, rejected))
    decreases |order|
  {
    if order != [] {
      var rest := MentionRows(tid, order[1..], rejected);
      assert NoDups(order[1..]) by {
        forall i, j | 0 <= i < j < |order| - 1 ensures order[1..][i] != order[1..][j] {
          assert order[1..][i] == order[i + 1] && order[1..][j] == order[j + 1];
        }
      }
      MentionRowsDistinct(tid, order[1..], rejected);
      if order[0] !in rejected {
        assert order[0] !in order[1..] by {
          forall k | 0 <= k < |order| - 1 ensures order[1..][k] != order[0] {
            assert order[1..][k] == order[k + 1];
          }
        }
        var ms := [Mention(tid, order[0])] + rest;
        forall i, j | 0 <= i < j < |ms| ensures ms[i] != ms[j] {
          assert ms[j] == rest[j - 1];
          if i > 0 {
            assert ms[i] == rest[i - 1];
          }
        }
      }
    }
  }

  /** `order` lists the elements of `s`, each once. */
  predicate Enumerates(order: seq<string>, s: set<string>) {
    NoDups(order) && (forall x | x in order :: x in s) && (forall x | x in s :: x in order)
  }

  /** Every finite set of terms can be walked in some order. */
  ghost function AnEnumeration(s: set<string>): (order: seq<string>)
    ensures Enumerates(order, s)
    decreases |s|
  {
    if s == {} then []
    else
      var x :| x in s;
      var rest := AnEnumeration(s - {x});
      AppendKeepsNoDups(rest, x);
      rest + [x]
  }

  /** A tweet gets 1 + the largest tid (1 for the first) and no reply
      target; then one mention row is appended per term of `order`. */
  function ComposeTweet(t: Tables, writer: int, text: string, date: string, time: string,
                        accepted: bool, order: seq<string>, rejected: set<string>): (r: (Tables, Option<int>))
    ensures r.1.Some? <==> accepted
    ensures r.1.None? ==> r.0 == t
    ensures r.1.Some? ==>
      (forall tw | tw in t.tweets :: tw.tid < r.1.value) &&
      (t.tweets == [] ==> r.1.value == 1) &&
      (t.tweets != [] ==> exists tw | tw in t.tweets :: tw.tid == r.1.value - 1) &&
      r.0 == t.(tweets := t.tweets + [Tweet(r.1.value, writer, text, date, time, None)],
                mentions := t.mentions + MentionRows(r.1.value, order, rejected))
  {
    if !accepted then (t, None)
    else
      var tid := NewTid(t.tweets);
      (t.(tweets := t.tweets + [Tweet(tid, writer, text, date, time, None)],
          mentions := t.mentions + MentionRows(tid, order, rejected)), Some(tid))
  }

  /** 1 + the largest tid, 1 for the first tweet. */
  function NewTid(tweets: seq<Tweet>): (n: int)
    ensures forall tw | tw in tweets :: tw.tid < n
    ensures tweets == [] ==> n == 1
    ensures tweets != [] ==> exists tw | tw in tweets :: tw.tid == n - 1
  {
    var ids := TweetIds(tweets);
    assert forall tw | tw in tweets :: tw.tid in ids by {
      forall tw | tw in tweets ensures tw.tid in ids {
        var k :| 0 <= k < |tweets| && tweets[k] == tw;
        assert ids[k] == tw.tid;
      }
    }
    NextId(ids)
  }

  /** When the terms are those of the text, each once, the new mention
      rows are exactly one per term of the text whose insert succeeded. */
  lemma ComposeMentions(t: Tables, writer: int, text: string, date: string, time: string,
                        order: seq<string>, rejected: set<string>)
    requires Enumerates(order, Hashtags(text))
    ensures var (t', tid) := ComposeTweet(t, writer, text, date, time, true, order, rejected);
      var added := t'.mentions[|t.mentions|..];
      NoDups(added) &&
      forall m :: m in added <==> m.tid == tid.value && m.term in Hashtags(text) && m.term !in rejected
  {
    var (t', tid) := ComposeTweet(t, writer, text, date, time, true, order, rejected);
    MentionRowsDistinct(tid.value, order, rejected);
    assert t'.mentions[|t.mentions|..] == MentionRows(tid.value, order, rejected);
  }

  /** A reply gets a new tid like a tweet and records what it answers; no
      hashtags are extracted from it. */
  function ReplyToTweet(t: Tables, writer: int, replyTo: int, text: string, date: string, time: string,
                        accepted: bool): (r: (Tables, Option<int>))
    ensures r.1.Some? <==> accepted
    ensures r.1.None? ==> r.0 == t
    ensures r.1.Some? ==>
      (forall tw | tw in t.tweets :: tw.tid < r.1.value) &&
      (t.tweets == [] ==> r.1.value == 1) &&
      (t.tweets != [] ==> exists tw | tw in t.tweets :: tw.tid == r.1.value - 1) &&
      r.0 == t.(tweets := t.tweets + [Tweet(r.1.value, writer, text, date, time, Some(replyTo))])
  {
    if !accepted then (t, None)
    else
      var tid := NewTid(t.tweets);
      (t.(tweets := t.tweets + [Tweet(tid, writer, text, date, time, Some(replyTo))]), Some(tid))
  }

  /** A successful reply adds one to the reply count of the tweet it
      answers and to the tweet count of its writer, and to nothing else. */
  lemma ReplyCounts(t: Tables, writer: int, replyTo: int, text: string, date: string, time: string)
    ensures var t' := ReplyToTweet(t, writer, replyTo, text, date, time, true).0;
      ReplyCount(t', replyTo) == ReplyCount(t, replyTo) + 1 &&
      TweetCount(t', writer) == TweetCount(t, writer) + 1 &&
      (forall x | x != replyTo :: ReplyCount(t', x) == ReplyCount(t, x)) &&
      (forall w | w != writer :: TweetCount(t', w) == TweetCount(t, w))
  {
    var (t', tid) := ReplyToTweet(t, writer, replyTo, text, date, time, true);
    var tw := Tweet(tid.value, writer, text, date, time, Some(replyTo));
    forall x ensures ReplyCount(t', x) == ReplyCount(t, x) + (if x == replyTo then 1 else 0) {
      CountAppend(t.tweets, tw, (tw: Tweet) => tw.replyTo == Some(x));
    }
    forall w ensures TweetCount(t', w) == TweetCount(t, w) + (if w == writer then 1 else 0) {
      CountAppend(t.tweets, tw, (tw: Tweet) => tw.writer == w);
    }
  }

  /** A posted tweet adds one to its writer's tweet count. */
  lemma ComposeCounts(t: Tables, writer: int, text: string, date: string, time: string,
                      order: seq<string>, rejected: set<string>)
    ensures var t' := ComposeTweet(t, writer, text, date, time, true, order, rejected).0;
      TweetCount(t', writer) == TweetCount(t, writer) + 1 &&
      forall w | w != writer :: TweetCount(t', w) == TweetCount(t, w)
  {
    var (t', tid) := ComposeTweet(t, writer, text, date, time, true, order, rejected);
    var tw := Tweet(tid.value, writer, text, date, time, None);
    forall w ensures TweetCount(t', w) == TweetCount(t, w) + (if w == writer then 1 else 0) {
      CountAppend(t.tweets, tw, (tw: Tweet) => tw.writer == w);
    }
  }

  // ---------------------------------------------------------------------
  // Retweet
  // ---------------------------------------------------------------------

  /** `SELECT writer_id FROM tweets WHERE tid = ?` with `fetchone`: the
      writer of the first tweet with that tid. */
  function WriterOf(tweets: seq<Tweet>, tid: int): (r: Option<int>)
    ensures r.None? <==> forall tw | tw in tweets :: tw.tid != tid
    ensures r.Some? ==> exists tw | tw in tweets :: tw.tid == tid && tw.writer == r.value
    decreases |tweets|
  {
    if tweets == [] then None
    else if tweets[0].tid == tid then Some(tweets[0].writer)
    else
      assert forall tw | tw in tweets :: tw == tweets[0] || tw in tweets[1..];
      WriterOf(tweets[1..], tid)
  }

  lemma {:induction false} WriterOfAppend(tweets: seq<Tweet>, x: Tweet, tid: int)
    requires WriterOf(tweets, tid).Some?
    ensures WriterOf(tweets + [x], tid) == WriterOf(tweets, tid)
    decreases |tweets|
  {
    if tweets[0].tid != tid {
      assert (tweets + [x])[1..] == tweets[1..] + [x];
      WriterOfAppend(tweets[1..], x, tid);
    }
  }

  datatype RetweetOutcome = NoSuchTweet | Retweeted | RetweetRefused

  /** The tweet must exist; the retweet records its writer and spam 0. */
  function RetweetTweet(t: Tables, retweeter: int, tid: int, date: string, accepted: bool): (r: (Tables, RetweetOutcome))
    ensures r.1 == NoSuchTweet <==> forall tw | tw in t.tweets :: tw.tid != tid
    ensures r.1 == Retweeted <==> accepted && exists tw | tw in t.tweets :: tw.tid == tid
    ensures r.1 != Retweeted ==> r.0 == t
    ensures r.1 == Retweeted ==>
      r.0 == t.(retweets := t.retweets + [Retweet(tid, retweeter, WriterOf(t.tweets, tid).value, 0, date)])
  {
    match WriterOf(t.tweets, tid)
    case None => (t, NoSuchTweet)
    case Some(w) =>
      if !accepted then (t, RetweetRefused)
      else (t.(retweets := t.retweets + [Retweet(tid, retweeter, w, 0, date)]), Retweeted)
  }

  /** A retweet adds one to the retweet count of its tweet and to no other. */
  lemma RetweetCounts(t: Tables, retweeter: int, tid: int, date: string)
    requires RetweetTweet(t, retweeter, tid, date, true).1 == Retweeted
    ensures var t' := RetweetTweet(t, retweeter, tid, date, true).0;
      RetweetCount(t', tid) == RetweetCount(t, tid) + 1 &&
      forall x | x != tid :: RetweetCount(t', x) == RetweetCount(t, x)
  {
    var t' := RetweetTweet(t, retweeter, tid, date, true).0;
    var rt := t'.retweets[|t.retweets|];
    assert t'.retweets == t.retweets + [rt];
    forall x ensures RetweetCount(t', x) == RetweetCount(t, x) + (if x == tid then 1 else 0) {
      CountAppend(t.retweets, rt, (r: Retweet) => r.tid == x);
    }
  }

  // ---------------------------------------------------------------------
  // Follow
  // ---------------------------------------------------------------------

  /** `SELECT * FROM follows WHERE flwer = ? AND flwee = ?` finds a row. */
  predicate IsFollowing(t: Tables, u: int, v: int) {
    exists f | f in t.follows :: f.flwer == u && f.flwee == v
  }

  datatype FollowOutcome = SelfFollow | AlreadyFollowing | Followed | FollowRefused

  /** Following oneself is refused first, then an existing edge; otherwise
      the edge (follower, followee) is appended. */
  function FollowUser(t: Tables, u: int, target: int, date: string, accepted: bool): (r: (Tables, FollowOutcome))
    ensures r.1 == SelfFollow <==> u == target
    ensures r.1 == AlreadyFollowing <==> u != target && IsFollowing(t, u, target)
    ensures r.1 == Followed <==> u != target && !IsFollowing(t, u, target) && accepted
    ensures r.1 != Followed ==> r.0 == t
    ensures r.1 == Followed ==> r.0 == t.(follows := t.follows + [Follow(u, target, date)])
  {
    if u == target then (t, SelfFollow)
    else if IsFollowing(t, u, target) then (t, AlreadyFollowing)
    else if !accepted then (t, FollowRefused)
    else (t.(follows := t.follows + [Follow(u, target, date)]), Followed)
  }

  /** A new edge makes the target a followee (so their tweets reach the
      feed) and adds one to the two counts it touches, and to no other. */
  lemma FollowCounts(t: Tables, u: int, target: int, date: string)
    requires FollowUser(t, u, target, date, true).1 == Followed
    ensures var t' := FollowUser(t, u, target, date, true).0;
      Followees(t', u) == Followees(t, u) + {target} &&
      FollowingCount(t', u) == FollowingCount(t, u) + 1 &&
      FollowerCount(t', target) == FollowerCount(t, target) + 1 &&
      (forall w | w != u :: FollowingCount(t', w) == FollowingCount(t, w)) &&
      (forall w | w != target :: FollowerCount(t', w) == FollowerCount(t, w))
  {
    var t' := FollowUser(t, u, target, date, true).0;
    var f := Follow(u, target, date);
    assert f in t'.follows;
    forall w ensures FollowingCount(t', w) == FollowingCount(t, w) + (if w == u then 1 else 0) {
      CountAppend(t.follows, f, (f: Follow) => f.flwer == w);
    }
    forall w ensures FollowerCount(t', w) == FollowerCount(t, w) + (if w == target then 1 else 0) {
      CountAppend(t.follows, f, (f: Follow) => f.flwee == w);
    }
  }

  // ---------------------------------------------------------------------
  // Favourite lists
  // ---------------------------------------------------------------------

  datatype ListOutcome = NoLists | Cancelled | InvalidList | Added(lname: string) | AddRefused

  /** The user picks one of their lists by its 1-based number; the tweet
      is added to it. */
  function AddToFavoriteList(t: Tables, u: int, tid: int, answer: string, accepted: bool): (r: (Tables, ListOutcome))
    ensures r.1 == NoLists <==> OwnedListNames(t, u) == []
    ensures r.1 == Cancelled <==> OwnedListNames(t, u) != [] && !IsDigits(Strip(answer))
    ensures r.1 == InvalidList <==>
      OwnedListNames(t, u) != [] && ParseSelection(answer, |OwnedListNames(t, u)|) == OutOfRange
    ensures r.1 == AddRefused <==>
      OwnedListNames(t, u) != [] && ParseSelection(answer, |OwnedListNames(t, u)|).Selected? && !accepted
    ensures OwnedListNames(t, u) != [] && ParseSelection(answer, |OwnedListNames(t, u)|).Selected? && accepted ==>
      r.1.Added?
    ensures !r.1.Added? ==> r.0 == t
    ensures r.1.Added? ==>
      accepted &&
      ParseSelection(answer, |OwnedListNames(t, u)|).Selected? &&
      r.1.lname == OwnedListNames(t, u)[ParseSelection(answer, |OwnedListNames(t, u)|).index] &&
      FavList(u, r.1.lname) in t.lists &&
      r.0 == t.(includes := t.includes + [Include(u, r.1.lname, tid)])
  {
    var names := OwnedListNames(t, u);
    if names == [] then (t, NoLists)
    else
      match ParseSelection(answer, |names|)
      case NotANumber => (t, Cancelled)
      case OutOfRange => (t, InvalidList)
      case Selected(k) =>
        if !accepted then (t, AddRefused)
        else (t.(includes := t.includes + [Include(u, names[k], tid)]), Added(names[k]))
  }

  /** Typing the number printed in front of a list adds the tweet to that
      list. */
  lemma AddToTypedList(t: Tables, u: int, tid: int, k: nat)
    requires k < |OwnedListNames(t, u)|
    ensures AddToFavoriteList(t, u, tid, DecimalString(k + 1), true).1 == Added(OwnedListNames(t, u)[k])
  {
    SelectionRoundTrip(k, |OwnedListNames(t, u)|);
  }

  // ---------------------------------------------------------------------
  // What every operation keeps
  // ---------------------------------------------------------------------

  predicate UniqueEdges(follows: seq<Follow>) {
    forall i, j | 0 <= i < j < |follows| ::
      follows[i].flwer != follows[j].flwer || follows[i].flwee != follows[j].flwee
  }

  /** User ids and tids are distinct; every retweet names an existing tweet
      and its true writer; nobody follows themselves and no edge is stored
      twice; list memberships name existing lists; hashtag terms are
      lower-case words of existing tweets, stored once per tweet. */
  predicate Consistent(t: Tables) {
    NoDups(UserIds(t.users)) &&
    NoDups(TweetIds(t.tweets)) &&
    (forall r | r in t.retweets :: WriterOf(t.tweets, r.tid) == Some(r.writer)) &&
    (forall f | f in t.follows :: f.flwer != f.flwee) &&
    UniqueEdges(t.follows) &&
    (forall i | i in t.includes :: FavList(i.owner, i.lname) in t.lists) &&
    (forall m | m in t.mentions :: IsTerm(m.term) && m.tid in TweetIds(t.tweets)) &&
    NoDups(t.mentions)
  }

  lemma NewIdKeepsDistinct(ids: seq<int>, n: int)
    requires NoDups(ids) && forall i | 0 <= i < |ids| :: ids[i] < n
    ensures NoDups(ids + [n])
  {
    assert n !in ids;
    AppendKeepsNoDups(ids, n);
  }

  /** Appending a tweet with a fresh tid keeps the tweet-related facts. */
  lemma AddTweetKeeps(t: Tables, tw: Tweet)
    requires Consistent(t)
    requires forall x | x in t.tweets :: x.tid < tw.tid
    ensures NoDups(TweetIds(t.tweets + [tw]))
    ensures forall r | r in t.retweets :: WriterOf(t.tweets + [tw], r.tid) == Some(r.writer)
    ensures forall m | m in t.mentions :: m.tid in TweetIds(t.tweets + [tw])
  {
    var ids := TweetIds(t.tweets);
    var ids' := TweetIds(t.tweets + [tw]);
    assert ids' == ids + [tw.tid];
    forall i | 0 <= i < |ids| ensures ids[i] < tw.tid {
      assert t.tweets[i] in t.tweets;
    }
    NewIdKeepsDistinct(ids, tw.tid);
    forall r | r in t.retweets ensures WriterOf(t.tweets + [tw], r.tid) == Some(r.writer) {
      WriterOfAppend(t.tweets, tw, r.tid);
    }
  }

  lemma SignupKeepsConsistent(t: Tables, name: string, email: string, phone: string, pwd: string, accepted: bool)
    requires Consistent(t)
    ensures Consistent(Signup(t, name, email, phone, pwd, accepted).0)
  {
    var (t', id) := Signup(t, name, email, phone, pwd, accepted);
    if id.Some? {
      var ids := UserIds(t.users);
      assert UserIds(t'.users) == ids + [id.value];
      forall i | 0 <= i < |ids| ensures ids[i] < id.value {
        assert t.users[i] in t.users;
      }
      NewIdKeepsDistinct(ids, id.value);
    }
  }

  lemma ComposeKeepsConsistent(t: Tables, writer: int, text: string, date: string, time: string,
                               accepted: bool, order: seq<string>, rejected: set<string>)
    requires Consistent(t)
    requires Enumerates(order, Hashtags(text))
    ensures Consistent(ComposeTweet(t, writer, text, date, time, accepted, order, rejected).0)
  {
    var (t', tid) := ComposeTweet(t, writer, text, date, time, accepted, order, rejected);
    if tid.Some? {
      HashtagsAreTerms(text);
      var n := tid.value;
      var tw := Tweet(n, writer, text, date, time, None);
      AddTweetKeeps(t, tw);
      var added := MentionRows(n, order, rejected);
      MentionRowsDistinct(n, order, rejected);
      assert n in TweetIds(t'.tweets) by {
        assert TweetIds(t'.tweets)[|t.tweets|] == n;
      }
      forall m | m in t.mentions ensures m !in added {
        var k :| 0 <= k < |TweetIds(t.tweets)| && TweetIds(t.tweets)[k] == m.tid;
        assert t.tweets[k] in t.tweets;
      }
      AppendDistinct(t.mentions, added);
    }
  }

  lemma AppendDistinct<T>(a: seq<T>, b: seq<T>)
    requires NoDups(a) && NoDups(b)
    requires forall x | x in a :: x !in b
    ensures NoDups(a + b)
  {
    var c := a + b;
    forall i, j | 0 <= i < j < |c| ensures c[i] != c[j] {
      if j < |a| {
        assert c[i] == a[i] && c[j] == a[j];
      } else if i < |a| {
        assert c[i] == a[i] && c[j] == b[j - |a|];
        assert a[i] in a;
      } else {
        assert c[i] == b[i - |a|] && c[j] == b[j - |a|];
      }
    }
  }

  lemma ReplyKeepsConsistent(t: Tables, writer: int, replyTo: int, text: string, date: string, time: string,
                             accepted: bool)
    requires Consistent(t)
    ensures Consistent(ReplyToTweet(t, writer, replyTo, text, date, time, accepted).0)
  {
    var (t', tid) := ReplyToTweet(t, writer, replyTo, text, date, time, accepted);
    if tid.Some? {
      AddTweetKeeps(t, Tweet(tid.value, writer, text, date, time, Some(replyTo)));
    }
  }

  lemma RetweetKeepsConsistent(t: Tables, retweeter: int, tid: int, date: string, accepted: bool)
    requires Consistent(t)
    ensures Consistent(RetweetTweet(t, retweeter, tid, date, accepted).0)
  {
  }

  lemma FollowKeepsConsistent(t: Tables, u: int, target: int, date: string, accepted: bool)
    requires Consistent(t)
    ensures Consistent(FollowUser(t, u, target, date, accepted).0)
  {
    var (t', outcome) := FollowUser(t, u, target, date, accepted);
    if outcome == Followed {
      var fs := t'.follows;
      forall i, j | 0 <= i < j < |fs| ensures fs[i].flwer != fs[j].flwer || fs[i].flwee != fs[j].flwee {
        if j == |t.follows| {
          assert fs[i] == t.follows[i] && t.follows[i] in t.follows;
        } else {
          assert fs[i] == t.follows[i] && fs[j] == t.follows[j];
        }
      }
    }
  }

  lemma AddToListKeepsConsistent(t: Tables, u: int, tid: int, answer: string, accepted: bool)
    requires Consistent(t)
    ensures Consistent(AddToFavoriteList(t, u, tid, answer, accepted).0)
  {
  }
}

=== FILE: paging.dfy ===
/** The page loop every listing of the client repeats (the feed, tweet
    search results, user search results, a user's tweets, the followers):
    results are shown five at a time; after a page that does not reach the
    end the user is asked "Show more? (y/n)", and any answer other than
    `y` (after stripping and lower-casing) stops the listing. */
module Paging {
  import opened Text

  const PageSize: nat := 5

  function Min(a: int, b: int): int { if a <= b then a else b }

  /** The continuation answer the loop accepts. */
  predicate IsYes(answer: string) {
    Lower(Strip(answer)) == "y"
  }

  /** Which of the typed answers say "show more". */
  function Replies(answers: seq<string>): (yes: seq<bool>)
    ensures |yes| == |answers|
    decreases |answers|
  {
    if answers == [] then [] else [IsYes(answers[0])] + Replies(answers[1..])
  }

  lemma {:induction false} RepliesAt(answers: seq<string>, k: nat)
    requires k < |answers|
    ensures Replies(answers)[k] == IsYes(answers[k])
    decreases k
  {
    if k > 0 {
      RepliesAt(answers[1..], k - 1);
    }
  }

  /** Page `k`: the slice `[5k, 5k + 5)` of the results, cut at the end. */
  function Page<T>(items: seq<T>, k: nat): seq<T> {
    items[Min(PageSize * k, |items|) .. Min(PageSize * k + PageSize, |items|)]
  }

  /** The first `m` pages. */
  function Shown<T>(items: seq<T>, m: nat): (pages: seq<seq<T>>)
    ensures |pages| == m
  {
    if m == 0 then [] else Shown(items, m - 1) + [Page(items, m - 1)]
  }

  /** How many pages are shown from page `k` on when the successive
      "Show more?" prompts are answered as `yes` says; running out of
      answers stops the listing. */
  function PageCountFrom(n: nat, yes: seq<bool>, k: nat): nat
    decreases n - PageSize * k
  {
    if n <= PageSize * k then 0
    else if n <= PageSize * k + PageSize then 1
    else 1 + (if k < |yes| && yes[k] then PageCountFrom(n, yes, k + 1) else 0)
  }

  /** How many times "Show more?" is asked from page `k` on: after every
      page that does not reach the end. */
  function PromptsFrom(n: nat, yes: seq<bool>, k: nat): nat
    decreases n - PageSize * k
  {
    if n <= PageSize * k + PageSize then 0
    else 1 + (if k < |yes| && yes[k] then PromptsFrom(n, yes, k + 1) else 0)
  }

  /** No page shown starts past the end of the results. */
  lemma {:induction false} PageCountBound(n: nat, yes: seq<bool>, k: nat)
    requires PageSize * k <= n
    ensures PageSize * (k + PageCountFrom(n, yes, k)) <= n + PageSize
    ensures PageCountFrom(n, yes, k) > 0 ==> PageSize * (k + PageCountFrom(n, yes, k) - 1) < n
    decreases n - PageSize * k
  {
    if n > PageSize * k + PageSize && k < |yes| && yes[k] {
      PageCountBound(n, yes, k + 1);
    }
  }

  function PageCount(n: nat, yes: seq<bool>): nat {
    PageCountFrom(n, yes, 0)
  }

  /** The pages shown for `items` when the prompts are answered as `yes`
      says. */
  function Pages<T>(items: seq<T>, yes: seq<bool>): seq<seq<T>> {
    Shown(items, PageCount(|items|, yes))
  }

  function Prompts(n: nat, yes: seq<bool>): nat {
    PromptsFrom(n, yes, 0)
  }

  function Flatten<T>(pages: seq<seq<T>>): seq<T>
    decreases |pages|
  {
    if pages == [] then [] else pages[0] + Flatten(pages[1..])
  }

  /** The loop of every listing, given the answers typed at its prompts. */
  method Paginate<T>(items: seq<T>, answers: seq<string>) returns (pages: seq<seq<T>>, prompts: nat)
    ensures pages == Pages(items, Replies(answers))
    ensures prompts == Prompts(|items|, Replies(answers))
  {
    var yes := Replies(answers);
    pages, prompts := PageThrough(items, yes);
  }

  /** The loop itself, on the yes/no readings of the answers: `index`
      advances by five after each page; the loop stops when a page is
      empty, when the end is reached, or at the first answer that is not
      `y`. */
  method PageThrough<T>(items: seq<T>, yes: seq<bool>) returns (pages: seq<seq<T>>, prompts: nat)
    ensures pages == Pages(items, yes)
    ensures prompts == Prompts(|items|, yes)
  {
    pages := [];
    prompts := 0;
    var index := 0;
    while index < |items|
      invariant prompts <= |yes|
      invariant index == PageSize * prompts && index <= |items|
      invariant pages == Shown(items, prompts)
      invariant prompts + PageCountFrom(|items|, yes, prompts) == PageCount(|items|, yes)
      invariant prompts + PromptsFrom(|items|, yes, prompts) == Prompts(|items|, yes)
      decreases |items| - index
    {
      var chunk := items[index..Min(index + PageSize, |items|)];
      pages := pages + [chunk];
      if index + PageSize >= |items| {
        assert PageCount(|items|, yes) == prompts + 1;
        return;
      }
      var more := prompts < |yes| && yes[prompts];
      prompts := prompts + 1;
      if !more {
        assert PageCount(|items|, yes) == prompts;
        return;
      }
      index := index + PageSize;
    }
    assert PageCount(|items|, yes) == prompts;
  }

  /** Page `k` of the first `m` is page `k`. */
  lemma {:induction false} ShownAt<T>(items: seq<T>, m: nat, k: nat)
    requires k < m
    ensures Shown(items, m)[k] == Page(items, k)
    decreases m
  {
    if k < m - 1 {
      ShownAt(items, m - 1, k);
    }
  }

  /** Page `k` is the slice `[5k, 5k + 5)` of the results, cut at the end. */
  lemma {:induction false} PageAt<T>(items: seq<T>, yes: seq<bool>, k: nat)
    requires k < |Pages(items, yes)|
    ensures PageSize * k < |items|
    ensures Pages(items, yes)[k] == items[PageSize * k .. Min(PageSize * k + PageSize, |items|)]
  {
    PageCountBound(|items|, yes, 0);
    ShownAt(items, PageCount(|items|, yes), k);
  }

  /** No page is empty and every page but the last is full. */
  lemma {:induction false} PagesFull<T>(items: seq<T>, yes: seq<bool>, k: nat)
    requires k < |Pages(items, yes)|
    ensures 1 <= |Pages(items, yes)[k]| <= PageSize
    ensures k + 1 < |Pages(items, yes)| ==> |Pages(items, yes)[k]| == PageSize
  {
    PageAt(items, yes, k);
    if k + 1 < |Pages(items, yes)| {
      PageAt(items, yes, k + 1);
    }
  }

  lemma {:induction false} FlattenSnoc<T>(pages: seq<seq<T>>, page: seq<T>)
    ensures Flatten(pages + [page]) == Flatten(pages) + page
    decreases |pages|
  {
    if pages != [] {
      assert (pages + [page])[1..] == pages[1..] + [page];
      FlattenSnoc(pages[1..], page);
    }
  }

  /** The first `m` pages hold the first `5m` results, in order. */
  lemma {:induction false} ShownFlat<T>(items: seq<T>, m: nat)
    ensures Flatten(Shown(items, m)) == items[..Min(PageSize * m, |items|)]
    decreases m
  {
    if m > 0 {
      ShownFlat(items, m - 1);
      FlattenSnoc(Shown(items, m - 1), Page(items, m - 1));
      assert items[..Min(PageSize * (m - 1), |items|)] + Page(items, m - 1) == items[..Min(PageSize * m, |items|)];
    }
  }

  /** What is shown is a prefix of the results, each item once, in order. */
  lemma {:induction false} PagesPrefix<T>(items: seq<T>, yes: seq<bool>)
    ensures |Flatten(Pages(items, yes))| <= |items|
    ensures Flatten(Pages(items, yes)) == items[..|Flatten(Pages(items, yes))|]
  {
    PageCountBound(|items|, yes, 0);
    ShownFlat(items, PageCount(|items|, yes));
  }

  predicate AllYes(yes: seq<bool>) {
    forall i | 0 <= i < |yes| :: yes[i]
  }

  function CeilPages(n: nat): nat { (n + PageSize - 1) / PageSize }

  /** Answering `y` every time, every page from `k` on is shown, asking
      after each but the last. */
  lemma {:induction false} AllYesFrom(n: nat, yes: seq<bool>, k: nat)
    requires AllYes(yes)
    requires PageSize * k < n
    requires |yes| + 1 >= CeilPages(n)
    ensures PageCountFrom(n, yes, k) == CeilPages(n) - k
    ensures PromptsFrom(n, yes, k) == CeilPages(n) - k - 1
    decreases n - PageSize * k
  {
    if n > PageSize * k + PageSize {
      assert CeilPages(n) > k + 1;
      assert yes[k];
      AllYesFrom(n, yes, k + 1);
    }
  }

  /** Answering `y` every time shows every result, in order, over
      ceil(N/5) pages after ceil(N/5) - 1 prompts. */
  lemma {:induction false} AllYesShowsAll<T>(items: seq<T>, yes: seq<bool>)
    requires AllYes(yes)
    requires |yes| + 1 >= CeilPages(|items|)
    ensures Flatten(Pages(items, yes)) == items
    ensures |Pages(items, yes)| == CeilPages(|items|)
    ensures |items| > 0 ==> Prompts(|items|, yes) == CeilPages(|items|) - 1
  {
    PageCountBound(|items|, yes, 0);
    if |items| > 0 {
      AllYesFrom(|items|, yes, 0);
    }
    ShownFlat(items, PageCount(|items|, yes));
    assert items[..|items|] == items;
  }

  /** The loop's view of the typed answers: with every answer `y` (any case,
      any surrounding white space) the whole list is shown. */
  lemma {:induction false} TypedYesShowsAll<T>(items: seq<T>, answers: seq<string>)
    requires forall i | 0 <= i < |answers| :: IsYes(answers[i])
    requires |answers| + 1 >= CeilPages(|items|)
    ensures Flatten(Pages(items, Replies(answers))) == items
  {
    forall i | 0 <= i < |answers| ensures Replies(answers)[i] {
      RepliesAt(answers, i);
    }
    AllYesShowsAll(items, Replies(answers));
  }

  /** A first answer other than `y` ends the listing after one page. */
  lemma {:induction false} StopsAtNo<T>(items: seq<T>, yes: seq<bool>)
    requires |items| > PageSize
    requires yes == [] || !yes[0]
    ensures Pages(items, yes) == [items[..PageSize]]
    ensures Prompts(|items|, yes) == 1
  {
    assert PageCount(|items|, yes) == 1;
  }
}

=== FILE: queries.dfy ===
/** What the client's `SELECT` statements return, as functions over the
    tables: the home feed, keyword matches for tweet search, user search
    and its ordering, the counts of the detail views, login, and the
    listings of followers, favourite lists and a user's tweets. Rows come
    back in table order; the `ORDER BY` clauses on dates are not modelled. */
module Queries {
  import opened Text
  import opened Schema

  // ---------------------------------------------------------------------
  // Row filters
  // ---------------------------------------------------------------------

  /** The rows of `s` that satisfy `p`, in order (a `WHERE` clause). */
  function Filter<T(!new)>(s: seq<T>, p: T -> bool): (r: seq<T>)
    ensures |r| <= |s|
    ensures forall x :: x in r <==> x in s && p(x)
    decreases |s|
  {
    if s == [] then []
    else (if p(s[0]) then [s[0]] else []) + Filter(s[1..], p)
  }

  lemma {:induction false} FilterAppend<T(!new)>(s: seq<T>, x: T, p: T -> bool)
    ensures Filter(s + [x], p) == Filter(s, p) + (if p(x) then [x] else [])
    decreases |s|
  {
    if s == [] {
      assert [x][1..] == [];
    } else {
      assert (s + [x])[1..] == s[1..] + [x];
      FilterAppend(s[1..], x, p);
    }
  }

  /** The selected column of every row (a projection). */
  function Map<A, B>(s: seq<A>, f: A -> B): (r: seq<B>)
    ensures |r| == |s|
  {
    seq(|s|, i requires 0 <= i < |s| => f(s[i]))
  }

  /** `SELECT COUNT(*) ... WHERE p`. */
  function Count<T(!new)>(s: seq<T>, p: T -> bool): nat {
    |Filter(s, p)|
  }

  /** Appending a row raises a count by one exactly when the row matches. */
  lemma CountAppend<T(!new)>(s: seq<T>, x: T, p: T -> bool)
    ensures Count(s + [x], p) == Count(s, p) + (if p(x) then 1 else 0)
  {
    FilterAppend(s, x, p);
  }

  // ---------------------------------------------------------------------
  // Home feed
  // ---------------------------------------------------------------------

  /** `SELECT flwee FROM follows WHERE flwer = u`. */
  function Followees(t: Tables, u: int): set<int> {
    set f | f in t.follows && f.flwer == u :: f.flwee
  }

  datatype RowKind = TweetRow | RetweetRow

  /** One row of the feed: kind, tid, date, time (`NULL` for retweets)
      and spam flag. */
  datatype FeedRow = FeedRow(kind: RowKind, tid: int, date: string, time: Option<string>, spam: int)

  function TweetRowOf(tw: Tweet): FeedRow {
    FeedRow(TweetRow, tw.tid, tw.date, Some(tw.time), 0)
  }

  function RetweetRowOf(r: Retweet): FeedRow {
    FeedRow(RetweetRow, r.tid, r.date, None, r.spam)
  }

  /** SQL `UNION`: the rows of `s` with repeats removed, first copy kept. */
  function Dedup<T(==,!new)>(s: seq<T>): (r: seq<T>)
    ensures forall x :: x in r <==> x in s
    ensures NoDups(r)
    decreases |s|
  {
    if s == [] then []
    else
      var r := Dedup(s[..|s| - 1]);
      var x := s[|s| - 1];
      assert forall y :: y in s <==> y in s[..|s| - 1] || y == x by {
        assert s == s[..|s| - 1] + [x];
      }
      if x in r then r else r + [x]
  }

  /** The feed of `u`: tweets written by followees, and retweets by
      followees whose spam flag is 0, as one `UNION`. */
  function Feed(t: Tables, u: int): (r: seq<FeedRow>)
    ensures NoDups(r)
  {
    var fs := Followees(t, u);
    var tweets := Map(Filter(t.tweets, (tw: Tweet) => tw.writer in fs), TweetRowOf);
    var retweets := Map(Filter(t.retweets, (r: Retweet) => r.retweeter in fs && r.spam == 0), RetweetRowOf);
    Dedup(tweets + retweets)
  }

  /** A row is in the feed exactly when it comes from a tweet by a followee
      or from a spam-free retweet by a followee; no row appears twice. */
  lemma FeedIff(t: Tables, u: int, row: FeedRow)
    ensures row in Feed(t, u) <==>
      (exists tw | tw in t.tweets :: tw.writer in Followees(t, u) && row == TweetRowOf(tw)) ||
      (exists r | r in t.retweets :: r.retweeter in Followees(t, u) && r.spam == 0 && row == RetweetRowOf(r))
    ensures NoDups(Feed(t, u))
  {
    var fs := Followees(t, u);
    var ts := Filter(t.tweets, (tw: Tweet) => tw.writer in fs);
    var rs := Filter(t.retweets, (r: Retweet) => r.retweeter in fs && r.spam == 0);
    var tweets := Map(ts, TweetRowOf);
    var retweets := Map(rs, RetweetRowOf);
    assert Feed(t, u) == Dedup(tweets + retweets);
    if row in tweets {
      var k :| 0 <= k < |tweets| && tweets[k] == row;
      assert ts[k] in t.tweets && ts[k].writer in fs;
    }
    if row in retweets {
      var k :| 0 <= k < |retweets| && retweets[k] == row;
      assert rs[k] in t.retweets && rs[k].retweeter in fs && rs[k].spam == 0;
    }
    forall tw | tw in t.tweets && tw.writer in fs && row == TweetRowOf(tw)
      ensures row in tweets
    {
      assert tw in ts;
      var k :| 0 <= k < |ts| && ts[k] == tw;
      assert tweets[k] == row;
    }
    forall r | r in t.retweets && r.retweeter in fs && r.spam == 0 && row == RetweetRowOf(r)
      ensures row in retweets
    {
      assert r in rs;
      var k :| 0 <= k < |rs| && rs[k] == r;
      assert retweets[k] == row;
    }
  }

  /** Two followees retweeting the same tweet on the same day give one
      feed row, because identical rows of the `UNION` collapse. */
  lemma UnionCollapsesRetweets(u: int, a: int, b: int, tid: int, writer: int, date: string, d1: string, d2: string)
    ensures var t := Tables([], [], [Retweet(tid, a, writer, 0, date), Retweet(tid, b, writer, 0, date)],
                            [Follow(u, a, d1), Follow(u, b, d2)], [], [], []);
      Feed(t, u) == [FeedRow(RetweetRow, tid, date, None, 0)]
  {
    var t := Tables([], [], [Retweet(tid, a, writer, 0, date), Retweet(tid, b, writer, 0, date)],
                    [Follow(u, a, d1), Follow(u, b, d2)], [], [], []);
    var fs := Followees(t, u);
    assert a in fs && b in fs by {
      assert t.follows[0] in t.follows && t.follows[1] in t.follows;
    }
    var row := FeedRow(RetweetRow, tid, date, None, 0);
    var p := (r: Retweet) => r.retweeter in fs && r.spam == 0;
    var rs := Filter(t.retweets, p);
    assert rs == t.retweets by {
      assert t.retweets[1..][1..] == [];
      assert Filter(t.retweets[1..], p) == [t.retweets[1]];
    }
    assert Filter(t.tweets, (tw: Tweet) => tw.writer in fs) == [];
    var s := Map(rs, RetweetRowOf);
    assert |s| == 2 && s[0] == RetweetRowOf(rs[0]) && s[1] == RetweetRowOf(rs[1]);
    assert s == [row, row];
    assert Dedup(s[..1]) == [row] by {
      assert s[..1][..0] == [];
    }
    assert Feed(t, u) == Dedup([] + s);
    assert [] + s == s;
  }

  // ---------------------------------------------------------------------
  // Tweet search
  // ---------------------------------------------------------------------

  /** `SELECT tid FROM hashtag_mentions WHERE lower(term) = ?`. */
  function TagMatches(mentions: seq<Mention>, term: string): set<int> {
    set m | m in mentions && Lower(m.term) == term :: m.tid
  }

  /** `SELECT tid FROM tweets WHERE lower(text) LIKE '%kw%'`, read as a
      substring test. */
  function TextMatches(tweets: seq<Tweet>, kw: string): set<int> {
    set tw | tw in tweets && Contains(Lower(tw.text), kw) :: tw.tid
  }

  /** The tids one keyword adds: a `#` keyword looks only at the hashtag
      terms; a plain keyword looks at the text and at the terms. */
  function KeywordMatches(t: Tables, kw: string): set<int> {
    if |kw| > 0 && kw[0] == '#' then TagMatches(t.mentions, kw[1..])
    else TextMatches(t.tweets, kw) + TagMatches(t.mentions, kw)
  }

  /** A `#term` keyword matches exactly the tweets tagged with `term`. */
  lemma HashKeywordMatches(t: Tables, term: string, tid: int)
    ensures tid in KeywordMatches(t, "#" + term) <==>
      exists m | m in t.mentions :: m.tid == tid && Lower(m.term) == term
  {
    assert ("#" + term)[1..] == term;
  }

  /** A plain keyword matches the tweets whose lower-cased text contains it
      and the tweets tagged with it. */
  lemma PlainKeywordMatches(t: Tables, kw: string, tid: int)
    requires kw == [] || kw[0] != '#'
    ensures tid in KeywordMatches(t, kw) <==>
      (exists tw | tw in t.tweets :: tw.tid == tid && Contains(Lower(tw.text), kw)) ||
      (exists m | m in t.mentions :: m.tid == tid && Lower(m.term) == kw)
  {
  }

  /** The union over the keywords. */
  function AllMatches(t: Tables, keywords: seq<string>): set<int>
    decreases |keywords|
  {
    if keywords == [] then {} else KeywordMatches(t, keywords[0]) + AllMatches(t, keywords[1..])
  }

  lemma {:induction false} AllMatchesIff(t: Tables, keywords: seq<string>, tid: int)
    ensures tid in AllMatches(t, keywords) <==>
      exists k | 0 <= k < |keywords| :: tid in KeywordMatches(t, keywords[k])
    decreases |keywords|
  {
    if keywords != [] {
      AllMatchesIff(t, keywords[1..], tid);
      if tid in AllMatches(t, keywords[1..]) {
        var k :| 0 <= k < |keywords| - 1 && tid in KeywordMatches(t, keywords[1..][k]);
        assert tid in KeywordMatches(t, keywords[k + 1]);
      }
      if exists k | 0 <= k < |keywords| :: tid in KeywordMatches(t, keywords[k]) {
        var k :| 0 <= k < |keywords| && tid in KeywordMatches(t, keywords[k]);
        if k > 0 {
          assert keywords[1..][k - 1] == keywords[k];
        }
      }
    }
  }

  lemma AllMatchesAppend(t: Tables, keywords: seq<string>, i: nat)
    requires i < |keywords|
    ensures AllMatches(t, keywords[i..]) == KeywordMatches(t, keywords[i]) + AllMatches(t, keywords[i + 1..])
  {
    assert keywords[i..][1..] == keywords[i + 1..];
  }

  /** The loop of tweet search: the matched tids are collected keyword by
      keyword into one set, so a tweet matched twice is kept once. */
  method MatchTweets(t: Tables, keywords: seq<string>) returns (matched: set<int>)
    ensures matched == AllMatches(t, keywords)
    ensures forall tid :: tid in matched <==>
      exists k | 0 <= k < |keywords| :: tid in KeywordMatches(t, keywords[k])
  {
    matched := {};
    var i := 0;
    while i < |keywords|
      invariant 0 <= i <= |keywords|
      invariant matched + AllMatches(t, keywords[i..]) == AllMatches(t, keywords)
      decreases |keywords| - i
    {
      var kw := keywords[i];
      AllMatchesAppend(t, keywords, i);
      if |kw| > 0 && kw[0] == '#' {
        matched := matched + TagMatches(t.mentions, kw[1..]);
      } else {
        matched := matched + TextMatches(t.tweets, kw);
        matched := matched + TagMatches(t.mentions, kw);
      }
      i := i + 1;
    }
    assert keywords[i..] == [];
    forall tid ensures tid in matched <==> exists k | 0 <= k < |keywords| :: tid in KeywordMatches(t, keywords[k]) {
      AllMatchesIff(t, keywords, tid);
    }
  }

  /** The tweets whose tid was matched, in table order. */
  function SearchResults(tweets: seq<Tweet>, matched: set<int>): seq<Tweet> {
    Filter(tweets, (tw: Tweet) => tw.tid in matched)
  }

  // ---------------------------------------------------------------------
  // User search
  // ---------------------------------------------------------------------

  datatype UserRow = UserRow(usr: int, name: string)

  /** `SELECT usr, name FROM users WHERE lower(name) LIKE '%kw%'`. */
  function UserMatches(users: seq<User>, kw: string): seq<UserRow> {
    Map(Filter(users, (u: User) => Contains(Lower(u.name), kw)), (u: User) => UserRow(u.usr, u.name))
  }

  /** Every matching user, and only those, is returned. */
  lemma UserMatchesIff(users: seq<User>, kw: string, row: UserRow)
    ensures row in UserMatches(users, kw) <==>
      exists u | u in users :: Contains(Lower(u.name), kw) && row == UserRow(u.usr, u.name)
  {
    var fs := Filter(users, (u: User) => Contains(Lower(u.name), kw));
    var rows := UserMatches(users, kw);
    if row in rows {
      var k :| 0 <= k < |rows| && rows[k] == row;
      assert fs[k] in users;
    }
    forall u | u in users && Contains(Lower(u.name), kw) && row == UserRow(u.usr, u.name)
      ensures row in rows
    {
      assert u in fs;
      var k :| 0 <= k < |fs| && fs[k] == u;
      assert rows[k] == row;
    }
  }

  predicate SortedByLength(s: seq<UserRow>) {
    forall i, j | 0 <= i < j < |s| :: |s[i].name| <= |s[j].name|
  }

  /** Puts `x` in front of the first row whose name is at least as long. */
  function InsertByLength(x: UserRow, s: seq<UserRow>): (r: seq<UserRow>)
    ensures multiset(r) == multiset(s) + multiset{x}
    decreases |s|
  {
    if s == [] || |x.name| <= |s[0].name| then [x] + s
    else
      assert s == [s[0]] + s[1..];
      [s[0]] + InsertByLength(x, s[1..])
  }

  /** `rows.sort(key=lambda x: len(x[1]))`: Python's sort is stable. */
  function SortByLength(s: seq<UserRow>): (r: seq<UserRow>)
    ensures multiset(r) == multiset(s)
    decreases |s|
  {
    if s == [] then []
    else
      assert s == [s[0]] + s[1..];
      InsertByLength(s[0], SortByLength(s[1..]))
  }

  lemma {:induction false} InsertSorted(x: UserRow, s: seq<UserRow>)
    requires SortedByLength(s)
    ensures SortedByLength(InsertByLength(x, s))
    decreases |s|
  {
    if s != [] && |x.name| > |s[0].name| {
      InsertSorted(x, s[1..]);
      var r := InsertByLength(x, s[1..]);
      forall k | 0 <= k < |r| ensures |s[0].name| <= |r[k].name| {
        assert r[k] in multiset(r);
        assert r[k] in multiset(s[1..]) + multiset{x};
        if r[k] != x {
          assert r[k] in s[1..];
        }
      }
    }
  }

  /** The rows with names of length `n`, in order. */
  function WithLength(s: seq<UserRow>, n: nat): seq<UserRow>
    decreases |s|
  {
    if s == [] then []
    else (if |s[0].name| == n then [s[0]] else []) + WithLength(s[1..], n)
  }

  lemma {:induction false} InsertStable(x: UserRow, s: seq<UserRow>, n: nat)
    requires SortedByLength(s)
    ensures WithLength(InsertByLength(x, s), n) == WithLength([x] + s, n)
    decreases |s|
  {
    if s == [] || |x.name| <= |s[0].name| {
    } else {
      InsertStable(x, s[1..], n);
      assert ([s[0]] + InsertByLength(x, s[1..]))[1..] == InsertByLength(x, s[1..]);
      assert ([x] + s[1..])[1..] == s[1..];
      assert ([x] + s)[1..] == s;
      if |x.name| == n {
        assert |s[0].name| < n;
        NoneOfLength(s, n);
      }
    }
  }

  /** The head of a length-sorted sequence that is shorter than `n` is not
      among its rows of length `n`. */
  lemma NoneOfLength(s: seq<UserRow>, n: nat)
    requires s != [] && SortedByLength(s) && |s[0].name| < n
    ensures WithLength(s, n) == WithLength(s[1..], n)
  {
  }

  /** The user search order: ascending by name length, a permutation of the
      matches, and rows with names of equal length keep their fetch order. */
  lemma {:induction false} SortByLengthSpec(s: seq<UserRow>)
    ensures SortedByLength(SortByLength(s))
    ensures multiset(SortByLength(s)) == multiset(s)
    ensures forall n: nat :: WithLength(SortByLength(s), n) == WithLength(s, n)
    decreases |s|
  {
    if s != [] {
      SortByLengthSpec(s[1..]);
      InsertSorted(s[0], SortByLength(s[1..]));
      forall n: nat ensures WithLength(SortByLength(s), n) == WithLength(s, n) {
        InsertStable(s[0], SortByLength(s[1..]), n);
        assert s == [s[0]] + s[1..];
      }
    }
  }

  // ---------------------------------------------------------------------
  // Counts of the detail views
  // ---------------------------------------------------------------------

  function RetweetCount(t: Tables, tid: int): nat {
    Count(t.retweets, (r: Retweet) => r.tid == tid)
  }

  function ReplyCount(t: Tables, tid: int): nat {
    Count(t.tweets, (tw: Tweet) => tw.replyTo == Some(tid))
  }

  function TweetCount(t: Tables, u: int): nat {
    Count(t.tweets, (tw: Tweet) => tw.writer == u)
  }

  function FollowingCount(t: Tables, u: int): nat {
    Count(t.follows, (f: Follow) => f.flwer == u)
  }

  function FollowerCount(t: Tables, u: int): nat {
    Count(t.follows, (f: Follow) => f.flwee == u)
  }

  // ---------------------------------------------------------------------
  // Login
  // ---------------------------------------------------------------------

  /** `usr = ? AND pwd = ?`: the typed id is compared with the integer
      column as a number. */
  predicate Credentials(u: User, key: string, pwd: string) {
    IsDigits(key) && DigitsValue(key) == u.usr && u.pwd == pwd
  }

  function FindUser(users: seq<User>, key: string, pwd: string): (r: Option<int>)
    ensures r.Some? <==> exists u | u in users :: Credentials(u, key, pwd)
    ensures r.Some? ==> IsDigits(key) && r.value == DigitsValue(key)
    decreases |users|
  {
    if users == [] then None
    else if Credentials(users[0], key, pwd) then Some(users[0].usr)
    else
      assert forall u | u in users :: u == users[0] || u in users[1..];
      FindUser(users[1..], key, pwd)
  }

  /** Login succeeds exactly when some user has the typed id (after
      stripping) and the password, and yields that id. */
  function Login(users: seq<User>, usr: string, pwd: string): (r: Option<int>)
    ensures r.Some? <==> exists u | u in users :: Credentials(u, Strip(usr), pwd)
    ensures r.Some? ==> r.value == DigitsValue(Strip(usr))
  {
    FindUser(users, Strip(usr), pwd)
  }

  // ---------------------------------------------------------------------
  // Listings
  // ---------------------------------------------------------------------

  /** `SELECT flwer FROM follows WHERE flwee = u`. */
  function FollowersOf(t: Tables, u: int): (r: seq<int>)
    ensures |r| == FollowerCount(t, u)
    ensures forall v :: v in r <==> exists f | f in t.follows :: f.flwer == v && f.flwee == u
  {
    var fs := Filter(t.follows, (f: Follow) => f.flwee == u);
    var r := Map(fs, (f: Follow) => f.flwer);
    assert forall v :: v in r ==> exists f | f in t.follows :: f.flwer == v && f.flwee == u by {
      forall v | v in r ensures exists f | f in t.follows :: f.flwer == v && f.flwee == u {
        var k :| 0 <= k < |r| && r[k] == v;
        assert fs[k] in t.follows;
      }
    }
    assert forall f | f in t.follows && f.flwee == u :: f.flwer in r by {
      forall f | f in t.follows && f.flwee == u ensures f.flwer in r {
        assert f in fs;
        var k :| 0 <= k < |fs| && fs[k] == f;
        assert r[k] == f.flwer;
      }
    }
    r
  }

  /** `SELECT lname FROM lists WHERE owner_id = u`. */
  function OwnedListNames(t: Tables, u: int): (r: seq<string>)
    ensures forall n :: n in r <==> FavList(u, n) in t.lists
  {
    var ls := Filter(t.lists, (l: FavList) => l.owner == u);
    var r := Map(ls, (l: FavList) => l.lname);
    assert forall n :: n in r ==> FavList(u, n) in t.lists by {
      forall n | n in r ensures FavList(u, n) in t.lists {
        var k :| 0 <= k < |r| && r[k] == n;
        assert ls[k] in t.lists && ls[k] == FavList(u, n);
      }
    }
    assert forall n :: FavList(u, n) in t.lists ==> n in r by {
      forall n | FavList(u, n) in t.lists ensures n in r {
        assert FavList(u, n) in ls;
        var k :| 0 <= k < |ls| && ls[k] == FavList(u, n);
        assert r[k] == n;
      }
    }
    r
  }

  /** `SELECT tid FROM include WHERE owner_id = u AND lname = n`. */
  function ListTids(t: Tables, u: int, lname: string): (r: seq<int>)
    ensures forall tid :: tid in r <==> Include(u, lname, tid) in t.includes
  {
    var rows := Filter(t.includes, (i: Include) => i.owner == u && i.lname == lname);
    var r := Map(rows, (i: Include) => i.tid);
    assert forall tid :: tid in r ==> Include(u, lname, tid) in t.includes by {
      forall tid | tid in r ensures Include(u, lname, tid) in t.includes {
        var k :| 0 <= k < |r| && r[k] == tid;
        assert rows[k] in t.includes && rows[k] == Include(u, lname, tid);
      }
    }
    assert forall tid :: Include(u, lname, tid) in t.includes ==> tid in r by {
      forall tid | Include(u, lname, tid) in t.includes ensures tid in r {
        assert Include(u, lname, tid) in rows;
        var k :| 0 <= k < |rows| && rows[k] == Include(u, lname, tid);
        assert r[k] == tid;
      }
    }
    r
  }

  /** What "List Favorite Lists" shows: each owned list with its tids. */
  function FavoriteListing(t: Tables, u: int): (r: seq<(string, seq<int>)>)
    ensures |r| == |OwnedListNames(t, u)|
    ensures forall k | 0 <= k < |r| :: r[k].0 == OwnedListNames(t, u)[k]
    ensures forall k | 0 <= k < |r| :: FavList(u, r[k].0) in t.lists
    ensures forall k, tid | 0 <= k < |r| :: tid in r[k].1 <==> Include(u, r[k].0, tid) in t.includes
  {
    var names := OwnedListNames(t, u);
    Map(names, (n: string) => (n, ListTids(t, u, n)))
  }

  /** `SELECT ... FROM tweets WHERE writer_id = u`. */
  function UserTweets(t: Tables, u: int): (r: seq<Tweet>)
    ensures |r| == TweetCount(t, u)
    ensures forall tw :: tw in r <==> tw in t.tweets && tw.writer == u
  {
    Filter(t.tweets, (tw: Tweet) => tw.writer == u)
  }

  /** The detail view's "most recent tweets", `LIMIT 3`. */
  function RecentTweets(t: Tables, u: int): (r: seq<Tweet>)
    ensures |r| == (if TweetCount(t, u) <= 3 then TweetCount(t, u) else 3)
    ensures r <= UserTweets(t, u)
  {
    var all := UserTweets(t, u);
    if |all| <= 3 then all else all[..3]
  }
}

=== FILE: schema.dfy ===
/** The seven tables the client reads and writes, as sequences of rows in
    insertion order, and the identifier rule shared by users and tweets:
    a new identifier is one more than the largest one in use, or 1 when
    the table is empty. */
module Schema {
  datatype Option<T> = None | Some(value: T)

  datatype User = User(usr: int, name: string, email: string, phone: string, pwd: string)

  /** A tweet; `replyTo` is the tweet it answers, `None` for a fresh tweet. */
  datatype Tweet = Tweet(tid: int, writer: int, text: string, date: string, time: string, replyTo: Option<int>)

  /** A retweet of `tid` by `retweeter`; `writer` is the original author. */
  datatype Retweet = Retweet(tid: int, retweeter: int, writer: int, spam: int, date: string)

  datatype Follow = Follow(flwer: int, flwee: int, startDate: string)

  /** A favourite list, named `lname`, of user `owner`. */
  datatype FavList = FavList(owner: int, lname: string)

  /** Membership of tweet `tid` in the list `lname` of `owner`. */
  datatype Include = Include(owner: int, lname: string, tid: int)

  /** A hashtag term used by tweet `tid`. */
  datatype Mention = Mention(tid: int, term: string)

  datatype Tables = Tables(
    users: seq<User>,
    tweets: seq<Tweet>,
    retweets: seq<Retweet>,
    follows: seq<Follow>,
    lists: seq<FavList>,
    includes: seq<Include>,
    mentions: seq<Mention>)

  /** Rows are only ever appended: every table of `a` is a prefix of the
      same table of `b`. */
  predicate Extends(a: Tables, b: Tables) {
    a.users <= b.users && a.tweets <= b.tweets && a.retweets <= b.retweets &&
    a.follows <= b.follows && a.lists <= b.lists && a.includes <= b.includes &&
    a.mentions <= b.mentions
  }

  lemma ExtendsTransitive(a: Tables, b: Tables, c: Tables)
    requires Extends(a, b) && Extends(b, c)
    ensures Extends(a, c)
  {
    assert a.users <= c.users by { PrefixTransitive(a.users, b.users, c.users); }
    assert a.tweets <= c.tweets by { PrefixTransitive(a.tweets, b.tweets, c.tweets); }
    assert a.retweets <= c.retweets by { PrefixTransitive(a.retweets, b.retweets, c.retweets); }
    assert a.follows <= c.follows by { PrefixTransitive(a.follows, b.follows, c.follows); }
    assert a.lists <= c.lists by { PrefixTransitive(a.lists, b.lists, c.lists); }
    assert a.includes <= c.includes by { PrefixTransitive(a.includes, b.includes, c.includes); }
    assert a.mentions <= c.mentions by { PrefixTransitive(a.mentions, b.mentions, c.mentions); }
  }

  lemma PrefixTransitive<T>(a: seq<T>, b: seq<T>, c: seq<T>)
    requires a <= b && b <= c
    ensures a <= c
  {
    assert a == b[..|a|];
    assert b == c[..|b|];
    assert c[..|b|][..|a|] == c[..|a|];
  }

  predicate NoDups<T(==)>(s: seq<T>) {
    forall i, j | 0 <= i < j < |s| :: s[i] != s[j]
  }

  function UserIds(users: seq<User>): seq<int> {
    seq(|users|, i requires 0 <= i < |users| => users[i].usr)
  }

  function TweetIds(tweets: seq<Tweet>): seq<int> {
    seq(|tweets|, i requires 0 <= i < |tweets| => tweets[i].tid)
  }

  /** `SELECT MAX(...)`, with the `NULL` of an empty table read as 0. */
  function MaxId(ids: seq<int>): (m: int)
    ensures ids == [] ==> m == 0
    ensures ids != [] ==> m in ids
    ensures forall i | 0 <= i < |ids| :: ids[i] <= m
    decreases |ids|
  {
    if ids == [] then 0
    else if |ids| == 1 then ids[0]
    else
      var rest := MaxId(ids[1..]);
      if ids[0] >= rest then ids[0] else rest
  }

  /** The identifier given to a new user or tweet: fresh, and 1 on an empty
      table. */
  function NextId(ids: seq<int>): (n: int)
    ensures forall i | 0 <= i < |ids| :: ids[i] < n
    ensures ids == [] ==> n == 1
    ensures ids != [] ==> n - 1 in ids
  {
    MaxId(ids) + 1
  }

  /** Appending a row that is not there yet keeps the rows distinct. */
  lemma AppendKeepsNoDups<T>(s: seq<T>, x: T)
    requires NoDups(s) && x !in s
    ensures NoDups(s + [x])
  {
    var r := s + [x];
    forall i, j | 0 <= i < j < |r| ensures r[i] != r[j] {
      assert r[i] == s[i];
      if j < |s| {
        assert r[j] == s[j];
      }
    }
  }
}

=== FILE: session.dfy ===
/** The main loop: a session is either logged out (`None`) or logged in as
    a user id. Logged out, the user logs in, signs up or exits; logged in,
    the user picks one of the five screens or logs out. */
module Session {
  import opened Text
  import opened Schema
  import opened Queries
  import Ops
  import opened Store
  import opened Client

  datatype Transition = Continue(current: Option<int>) | Exit

  /** The state machine of the main loop, given the (stripped) menu choice
      and what login and signup returned. */
  function Next(current: Option<int>, choice: string, loggedIn: Option<int>, signedUp: Option<int>): (r: Transition)
    ensures r.Exit? <==> current.None? && choice == "3"
    ensures current.Some? ==> (r == Continue(None) <==> choice == "6")
    ensures current.Some? && choice != "6" ==> r == Continue(current)
    ensures current.None? && r.Continue? && r.current.Some? ==>
      (choice == "1" && r.current == loggedIn) || (choice == "2" && r.current == signedUp)
    ensures current.None? && choice == "1" ==> r == Continue(loggedIn)
    ensures current.None? && choice == "2" ==> r == Continue(signedUp)
    ensures current.None? && choice != "1" && choice != "2" && choice != "3" ==> r == Continue(None)
  {
    match current
    case None =>
      if choice == "1" then Continue(loggedIn)
      else if choice == "2" then Continue(signedUp)
      else if choice == "3" then Exit
      else Continue(None)
    case Some(_) =>
      if choice == "6" then Continue(None) else Continue(current)
  }

  /** A logged-in session cannot exit without logging out first, and a
      logged-out session reaches a user only through login or signup. */
  lemma ExitNeedsLogout(current: Option<int>, choice: string, loggedIn: Option<int>, signedUp: Option<int>)
    requires current.Some?
    ensures !Next(current, choice, loggedIn, signedUp).Exit?
    ensures Next(Next(current, "6", loggedIn, signedUp).current, "3", loggedIn, signedUp) == Exit
  {
  }

  predicate IsUser(t: Tables, id: int) {
    exists u | u in t.users :: u.usr == id
  }

  datatype SignupForm = SignupForm(name: string, email: string, phone: string, pwd: string, accepted: bool)

  datatype ComposeForm = ComposeForm(text: string, date: string, time: string, accepted: bool, rejected: set<string>)

  /** Everything typed during one pass of the main loop; only the parts the
      chosen menu entry reads are used. */
  datatype Turn = Turn(
    choice: string,
    usr: string,
    pwd: string,
    signup: SignupForm,
    feedAnswers: seq<string>,
    search: SearchForm,
    userSearch: UserSearchForm,
    compose: ComposeForm,
    followers: FollowersForm)

  /** What signup returns on the tables `t`. */
  function SignupResult(t: Tables, f: SignupForm): Option<int> {
    Ops.Signup(t, f.name, f.email, f.phone, f.pwd, f.accepted).1
  }

  /** The tables after one pass of the logged-out menu: only a signup
      writes. */
  function LoggedOutTables(t: Tables, choice: string, turn: Turn): Tables {
    if choice == "2" then
      var f := turn.signup;
      Ops.Signup(t, f.name, f.email, f.phone, f.pwd, f.accepted).0
    else t
  }

  /** The tables after one pass of the logged-in menu, given the order in
      which compose walks the hashtags of its text. */
  function LoggedInTables(t: Tables, u: int, choice: string, turn: Turn, order: seq<string>): Tables {
    if choice == "1" then SearchTweetsEffect(t, u, turn.search)
    else if choice == "2" then SearchUsersEffect(t, u, turn.userSearch)
    else if choice == "3" then
      var f := turn.compose;
      Ops.ComposeTweet(t, u, f.text, f.date, f.time, f.accepted, order, f.rejected).0
    else if choice == "4" then ListFollowersEffect(t, u, turn.followers)
    else t
  }

  function StepTables(t: Tables, current: Option<int>, turn: Turn, order: seq<string>): Tables {
    match current
    case None => LoggedOutTables(t, Strip(turn.choice), turn)
    case Some(u) => LoggedInTables(t, u, Strip(turn.choice), turn, order)
  }

  /** The transition of one pass, on the tables before it. */
  function StepTransition(t: Tables, current: Option<int>, turn: Turn): Transition {
    Next(current, Strip(turn.choice), Login(t.users, turn.usr, turn.pwd), SignupResult(t, turn.signup))
  }

  /** The state of the loop (tables, session, exited) after one more
      pass; once exited, nothing more happens. */
  function Pass(s: (Tables, Option<int>, bool), turn: Turn, order: seq<string>): (Tables, Option<int>, bool) {
    if s.2 then s
    else
      var r := StepTransition(s.0, s.1, turn);
      var t1 := StepTables(s.0, s.1, turn, order);
      if r.Exit? then (t1, None, true) else (t1, r.current, false)
  }

  /** The tables, the session and whether the loop exited, after the
      passes `turns` (compose in pass k walking its hashtags in
      `orders[k]`). */
  function RunState(t: Tables, turns: seq<Turn>, orders: seq<seq<string>>): (Tables, Option<int>, bool)
    requires |orders| == |turns|
    decreases |turns|
  {
    if turns == [] then (t, None, false)
    else
      var n := |turns| - 1;
      Pass(RunState(t, turns[..n], orders[..n]), turns[n], orders[n])
  }

  lemma RunStateSnoc(t: Tables, turns: seq<Turn>, orders: seq<seq<string>>, turn: Turn, order: seq<string>)
    requires |orders| == |turns|
    ensures RunState(t, turns + [turn], orders + [order]) == Pass(RunState(t, turns, orders), turn, order)
  {
    assert (turns + [turn])[..|turns|] == turns;
    assert (orders + [order])[..|orders|] == orders;
  }

  /** `states` are the states the loop went through: it starts logged out,
      and each state is one pass on from the one before. */
  ghost predicate IsTrace(t: Tables, turns: seq<Turn>, orders: seq<seq<string>>,
                          states: seq<(Tables, Option<int>, bool)>) {
    |orders| <= |turns| && |states| == |orders| + 1 && states[0] == (t, None, false) &&
    forall k {:trigger Pass(states[k], turns[k], orders[k])} | 0 <= k < |orders| ::
      states[k + 1] == Pass(states[k], turns[k], orders[k])
  }

  lemma IsTraceSnoc(t: Tables, turns: seq<Turn>, orders: seq<seq<string>>,
                    states: seq<(Tables, Option<int>, bool)>, order: seq<string>)
    requires IsTrace(t, turns, orders, states) && |orders| < |turns|
    ensures IsTrace(t, turns, orders + [order],
                    states + [Pass(states[|orders|], turns[|orders|], order)])
  {
    var o := orders + [order];
    var ss := states + [Pass(states[|orders|], turns[|orders|], order)];
    forall k | 0 <= k < |o|
      ensures ss[k + 1] == Pass(ss[k], turns[k], o[k])
    {
      if k < |orders| {
        assert ss[k + 1] == states[k + 1] && ss[k] == states[k] && o[k] == orders[k];
      }
    }
  }

  /** A pass that did what Step promises extends the trace by its new
      state. */
  lemma TraceStep(t: Tables, turns: seq<Turn>, orders: seq<seq<string>>,
                  states: seq<(Tables, Option<int>, bool)>, order: seq<string>, r: Transition, after: Tables)
    requires IsTrace(t, turns, orders, states) && |orders| < |turns|
    requires !states[|orders|].2
    requires r == StepTransition(states[|orders|].0, states[|orders|].1, turns[|orders|])
    requires after == StepTables(states[|orders|].0, states[|orders|].1, turns[|orders|], order)
    ensures IsTrace(t, turns, orders + [order],
                    states + [(after, if r.Exit? then None else r.current, r.Exit?)])
  {
    var i := |orders|;
    StepIsPass(states[i].0, states[i].1, turns[i], order, after, r);
    IsTraceSnoc(t, turns, orders, states, order);
  }

  lemma IsTracePrefix(t: Tables, turns: seq<Turn>, orders: seq<seq<string>>,
                      states: seq<(Tables, Option<int>, bool)>)
    requires IsTrace(t, turns, orders, states) && orders != []
    ensures var m := |orders| - 1; IsTrace(t, turns, orders[..m], states[..m + 1])
  {
    var m := |orders| - 1;
    forall k | 0 <= k < m
      ensures states[..m + 1][k + 1] == Pass(states[..m + 1][k], turns[k], orders[..m][k])
    {
      assert states[k + 1] == Pass(states[k], turns[k], orders[k]);
    }
  }

  /** The last state of a trace is the state `RunState` gives for the
      passes it covers. */
  lemma {:induction false} TraceFinal(t: Tables, turns: seq<Turn>, orders: seq<seq<string>>,
                                      states: seq<(Tables, Option<int>, bool)>)
    requires IsTrace(t, turns, orders, states)
    ensures states[|orders|] == RunState(t, turns[..|orders|], orders)
    decreases |orders|
  {
    var n := |orders|;
    if n == 0 {
      assert turns[..0] == [];
    } else {
      var m := n - 1;
      IsTracePrefix(t, turns, orders, states);
      TraceFinal(t, turns, orders[..m], states[..m + 1]);
      assert states[n] == Pass(states[m], turns[m], orders[m]);
      RunStateSnoc(t, turns[..m], orders[..m], turns[m], orders[m]);
      assert turns[..n] == turns[..m] + [turns[m]];
      assert orders == orders[..m] + [orders[m]];
    }
  }

  /** Once the loop has exited, further input changes nothing. */
  lemma {:induction false} RunStopsAtExit(t: Tables, turns: seq<Turn>, orders: seq<seq<string>>,
                                          more: seq<Turn>, moreOrders: seq<seq<string>>)
    requires |orders| == |turns| && |moreOrders| == |more|
    requires RunState(t, turns, orders).2
    ensures RunState(t, turns + more, orders + moreOrders) == RunState(t, turns, orders)
    decreases |more|
  {
    if more != [] {
      var n := |more| - 1;
      RunStopsAtExit(t, turns, orders, more[..n], moreOrders[..n]);
      assert turns + more == (turns + more[..n]) + [more[n]];
      assert orders + moreOrders == (orders + moreOrders[..n]) + [moreOrders[n]];
      RunStateSnoc(t, turns + more[..n], orders + moreOrders[..n], more[n], moreOrders[n]);
    } else {
      assert turns + more == turns && orders + moreOrders == orders;
    }
  }

  /** One pass of the main loop. */
  method Step(db: Db, current: Option<int>, turn: Turn) returns (r: Transition, ghost order: seq<string>)
    modifies db
    requires current.Some? ==> IsUser(db.Snapshot(), current.value)
    ensures r == StepTransition(old(db.Snapshot()), current, turn)
    ensures Ops.Enumerates(order, Hashtags(turn.compose.text))
    ensures db.Snapshot() == StepTables(old(db.Snapshot()), current, turn, order)
    ensures r.Continue? && r.current.Some? ==> IsUser(db.Snapshot(), r.current.value)
    ensures Extends(old(db.Snapshot()), db.Snapshot())
    ensures db.users == old(db.users) || (current.None? && Strip(turn.choice) == "2")
    ensures old(db.Valid()) ==> db.Valid()
  {
    var choice := Strip(turn.choice);
    if current.None? {
      r := LoggedOutStep(db, choice, turn);
      order := Ops.AnEnumeration(Hashtags(turn.compose.text));
    } else {
      order := LoggedInStep(db, current.value, choice, turn);
      r := if choice == "6" then Continue(None) else Continue(current);
    }
  }

  /** The start menu: login, signup or exit; a successful login or signup
      shows the feed of the user. */
  method LoggedOutStep(db: Db, choice: string, turn: Turn) returns (r: Transition)
    modifies db
    ensures r == Next(None, choice, Login(old(db.users), turn.usr, turn.pwd), SignupResult(old(db.Snapshot()), turn.signup))
    ensures db.Snapshot() == LoggedOutTables(old(db.Snapshot()), choice, turn)
    ensures r.Continue? && r.current.Some? ==> IsUser(db.Snapshot(), r.current.value)
    ensures old(db.Valid()) ==> db.Valid()
  {
    if choice == "1" {
      var id := Login(db.users, turn.usr, turn.pwd);
      r := Continue(id);
      if id.Some? {
        var feed := ShowFollowedTweets(db, id.value, turn.feedAnswers);
      }
    } else if choice == "2" {
      var f := turn.signup;
      var id := db.Signup(f.name, f.email, f.phone, f.pwd, f.accepted);
      r := Continue(id);
      if id.Some? {
        assert db.users[|db.users| - 1].usr == id.value;
        var feed := ShowFollowedTweets(db, id.value, turn.feedAnswers);
      }
    } else if choice == "3" {
      r := Exit;
    } else {
      r := Continue(None);
    }
  }

  /** The menu of a logged-in user: one of the five screens, or logout,
      which changes nothing. `order` is the order in which compose walked
      the hashtags (any order of them when compose was not chosen). */
  method LoggedInStep(db: Db, u: int, choice: string, turn: Turn) returns (ghost order: seq<string>)
    modifies db
    ensures Ops.Enumerates(order, Hashtags(turn.compose.text))
    ensures db.Snapshot() == LoggedInTables(old(db.Snapshot()), u, choice, turn, order)
    ensures Extends(old(db.Snapshot()), db.Snapshot())
    ensures db.users == old(db.users)
    ensures old(db.Valid()) ==> db.Valid()
  {
    order := Ops.AnEnumeration(Hashtags(turn.compose.text));
    if choice == "1" {
      var outcome := SearchTweets(db, u, turn.search);
    } else if choice == "2" {
      var outcome := SearchUsers(db, u, turn.userSearch);
    } else if choice == "3" {
      var f := turn.compose;
      var tid, walked := db.ComposeTweet(u, f.text, f.date, f.time, f.accepted, f.rejected);
      order := walked;
    } else if choice == "4" {
      var outcome := ListFollowers(db, u, turn.followers);
    } else if choice == "5" {
      var listing := ListFavoriteLists(db, u);
    }
  }

  /** A pass that did what Step promises is one pass on from where it
      started. */
  lemma StepIsPass(before: Tables, current: Option<int>, turn: Turn, order: seq<string>, after: Tables, r: Transition)
    requires r == StepTransition(before, current, turn)
    requires after == StepTables(before, current, turn, order)
    ensures Pass((before, current, false), turn, order) == (after, if r.Exit? then None else r.current, r.Exit?)
  {
  }

  /** Pass k of the loop walked the hashtags of its compose text in
      `orders[k]`. */
  ghost predicate WalksHashtags(turns: seq<Turn>, orders: seq<seq<string>>) {
    |orders| <= |turns| &&
    forall k | 0 <= k < |orders| :: Ops.Enumerates(orders[k], Hashtags(turns[k].compose.text))
  }

  lemma WalksHashtagsSnoc(turns: seq<Turn>, orders: seq<seq<string>>, order: seq<string>)
    requires WalksHashtags(turns, orders) && |orders| < |turns|
    requires Ops.Enumerates(order, Hashtags(turns[|orders|].compose.text))
    ensures WalksHashtags(turns, orders + [order])
  {
    var o := orders + [order];
    forall k | 0 <= k < |o|
      ensures Ops.Enumerates(o[k], Hashtags(turns[k].compose.text))
    {
      if k < |orders| {
        assert o[k] == orders[k];
      }
    }
  }

  /** The main loop over the turns typed, until Exit or until the input
      runs out. */
  method Run(db: Db, turns: seq<Turn>)
    returns (current: Option<int>, exited: bool, ghost orders: seq<seq<string>>,
             ghost states: seq<(Tables, Option<int>, bool)>)
    modifies db
    ensures IsTrace(old(db.Snapshot()), turns, orders, states)
    ensures states[|orders|] == (db.Snapshot(), current, exited)
    ensures !exited ==> |orders| == |turns|
    ensures WalksHashtags(turns, orders)
    ensures exited ==> current.None?
    ensures current.Some? ==> IsUser(db.Snapshot(), current.value)
    ensures Extends(old(db.Snapshot()), db.Snapshot())
    ensures old(db.Valid()) ==> db.Valid()
  {
    current := None;
    exited := false;
    orders := [];
    states := [(db.Snapshot(), None, false)];
    var i := 0;
    while i < |turns|
      invariant 0 <= i <= |turns| && |orders| == i
      invariant IsTrace(old(db.Snapshot()), turns, orders, states)
      invariant states[i] == (db.Snapshot(), current, false)
      invariant WalksHashtags(turns, orders)
      invariant current.Some? ==> IsUser(db.Snapshot(), current.value)
      invariant Extends(old(db.Snapshot()), db.Snapshot())
      invariant old(db.Valid()) ==> db.Valid()
      decreases |turns| - i
    {
      var r;
      r, orders, states := Advance(db, current, turns, i, orders, states, old(db.Snapshot()));
      if r == Exit {
        exited := true;
        break;
      }
      current := r.current;
      i := i + 1;
    }
  }

  /** One turn of Run's loop: a Step, with the trace extended by the pass
      it made. */
  method Advance(db: Db, current: Option<int>, turns: seq<Turn>, i: nat, ghost orders: seq<seq<string>>,
                 ghost states: seq<(Tables, Option<int>, bool)>, ghost start: Tables)
    returns (r: Transition, ghost orders': seq<seq<string>>, ghost states': seq<(Tables, Option<int>, bool)>)
    modifies db
    requires i == |orders| < |turns|
    requires IsTrace(start, turns, orders, states)
    requires states[|orders|] == (db.Snapshot(), current, false)
    requires WalksHashtags(turns, orders)
    requires current.Some? ==> IsUser(db.Snapshot(), current.value)
    requires Extends(start, db.Snapshot())
    ensures |orders'| == |orders| + 1
    ensures IsTrace(start, turns, orders', states')
    ensures states'[|orders'|] == (db.Snapshot(), if r.Exit? then None else r.current, r.Exit?)
    ensures WalksHashtags(turns, orders')
    ensures r.Exit? ==> current.None?
    ensures r.Continue? && r.current.Some? ==> IsUser(db.Snapshot(), r.current.value)
    ensures Extends(start, db.Snapshot())
    ensures old(db.Valid()) ==> db.Valid()
  {
    ghost var before := db.Snapshot();
    ghost var order;
    r, order := Step(db, current, turns[i]);
    ghost var after := db.Snapshot();
    ExtendsTransitive(start, before, after);
    TraceStep(start, turns, orders, states, order, r, after);
    WalksHashtagsSnoc(turns, orders, order);
    states' := states + [(after, if r.Exit? then None else r.current, r.Exit?)];
    orders' := orders + [order];
  }
}

=== FILE: store.dfy ===
/** The database connection as an object: seven tables that the client's
    write operations update in place, one statement after another. Each
    method does what the matching function of `Ops` describes and keeps
    `Valid`. */
module Store {
  import opened Text
  import opened Schema
  import opened Queries
  import Ops

  class Db {
    var users: seq<User>
    var tweets: seq<Tweet>
    var retweets: seq<Retweet>
    var follows: seq<Follow>
    var lists: seq<FavList>
    var includes: seq<Include>
    var mentions: seq<Mention>

    /** The tables as values. */
    function Snapshot(): Tables
      reads this
    {
      Tables(users, tweets, retweets, follows, lists, includes, mentions)
    }

    predicate Valid()
      reads this
    {
      Ops.Consistent(Snapshot())
    }

    /** Opens a database holding `t`. */
    constructor (t: Tables)
      ensures Snapshot() == t
    {
      users := t.users;
      tweets := t.tweets;
      retweets := t.retweets;
      follows := t.follows;
      lists := t.lists;
      includes := t.includes;
      mentions := t.mentions;
    }

    /** `signup`: checks the email, computes 1 + `MAX(usr)` and inserts the
        user; returns the new id, or `None` when nothing was stored. */
    method Signup(name: string, email: string, phone: string, pwd: string, accepted: bool) returns (id: Option<int>)
      modifies this
      ensures (Snapshot(), id) == Ops.Signup(old(Snapshot()), name, email, phone, pwd, accepted)
      ensures old(Valid()) ==> Valid()
    {
      var n := Strip(name);
      var e := Strip(email);
      var p := Strip(phone);
      if !ValidEmail(e) {
        return None;
      }
      var newId := NextId(UserIds(users));
      if !accepted {
        return None;
      }
      users := users + [User(newId, n, e, p, pwd)];
      id := Some(newId);
      if old(Valid()) {
        Ops.SignupKeepsConsistent(old(Snapshot()), name, email, phone, pwd, accepted);
      }
    }

    /** `compose_tweet`: inserts the tweet with a new tid and, only when
        that insert succeeded, one mention row per distinct lower-cased
        hashtag of the text, in the order the set of terms is walked
        (`order`); a refused mention insert is skipped. A refused tweet
        returns before the hashtags are extracted, so `order` is then only
        some order of them that the contract can name. */
    method ComposeTweet(writer: int, text: string, date: string, time: string, accepted: bool, rejected: set<string>)
      returns (tid: Option<int>, ghost order: seq<string>)
      modifies this
      ensures (Snapshot(), tid) == Ops.ComposeTweet(old(Snapshot()), writer, text, date, time, accepted, order, rejected)
      ensures Ops.Enumerates(order, Hashtags(text))
      ensures old(Valid()) ==> Valid()
    {
      var newTid := Ops.NewTid(tweets);
      if !accepted {
        order := Ops.AnEnumeration(Hashtags(text));
        return None, order;
      }
      tweets := tweets + [Tweet(newTid, writer, text, date, time, None)];
      var tags := ExtractHashtags(text);
      order := InsertMentions(newTid, tags, rejected);
      tid := Some(newTid);
      if old(Valid()) {
        Ops.ComposeKeepsConsistent(old(Snapshot()), writer, text, date, time, accepted, order, rejected);
      }
    }

    /** The mention inserts of compose: one row per term, in the order the
        set is walked; a refused insert is skipped. */
    method InsertMentions(tid: int, tags: set<string>, rejected: set<string>) returns (order: seq<string>)
      modifies this
      ensures Snapshot() == old(Snapshot()).(mentions := old(mentions) + Ops.MentionRows(tid, order, rejected))
      ensures Ops.Enumerates(order, tags)
    {
      order := [];
      var rest := tags;
      while rest != {}
        invariant Snapshot() == old(Snapshot()).(mentions := mentions)
        invariant mentions == old(mentions) + Ops.MentionRows(tid, order, rejected)
        invariant NoDups(order)
        invariant forall x | x in order :: x in tags && x !in rest
        invariant forall x | x in tags :: x in order || x in rest
        invariant rest <= tags
        decreases |rest|
      {
        var h :| h in rest;
        Ops.MentionRowsAppend(tid, order, h, rejected);
        if h !in rejected {
          mentions := mentions + [Mention(tid, h)];
        }
        AppendKeepsNoDups(order, h);
        order := order + [h];
        rest := rest - {h};
      }
    }

    /** `reply_to_tweet`: a tweet with a new tid that answers `replyTo`. */
    method ReplyToTweet(writer: int, replyTo: int, text: string, date: string, time: string, accepted: bool)
      returns (tid: Option<int>)
      modifies this
      ensures (Snapshot(), tid) == Ops.ReplyToTweet(old(Snapshot()), writer, replyTo, text, date, time, accepted)
      ensures old(Valid()) ==> Valid()
    {
      var newTid := Ops.NewTid(tweets);
      if !accepted {
        return None;
      }
      tweets := tweets + [Tweet(newTid, writer, text, date, time, Some(replyTo))];
      tid := Some(newTid);
      if old(Valid()) {
        Ops.ReplyKeepsConsistent(old(Snapshot()), writer, replyTo, text, date, time, accepted);
      }
    }

    /** `retweet_tweet`: looks up the writer of `tid` and records the
        retweet with spam 0. */
    method RetweetTweet(retweeter: int, tid: int, date: string, accepted: bool) returns (outcome: Ops.RetweetOutcome)
      modifies this
      ensures (Snapshot(), outcome) == Ops.RetweetTweet(old(Snapshot()), retweeter, tid, date, accepted)
      ensures old(Valid()) ==> Valid()
    {
      var writer := Ops.WriterOf(tweets, tid);
      if writer.None? {
        return Ops.NoSuchTweet;
      }
      if !accepted {
        return Ops.RetweetRefused;
      }
      retweets := retweets + [Retweet(tid, retweeter, writer.value, 0, date)];
      outcome := Ops.Retweeted;
      if old(Valid()) {
        Ops.RetweetKeepsConsistent(old(Snapshot()), retweeter, tid, date, accepted);
      }
    }

    /** `follow_user`: refuses a self-follow, then an existing edge, and
        otherwise stores the edge. */
    method FollowUser(current: int, target: int, date: string, accepted: bool) returns (outcome: Ops.FollowOutcome)
      modifies this
      ensures (Snapshot(), outcome) == Ops.FollowUser(old(Snapshot()), current, target, date, accepted)
      ensures old(Valid()) ==> Valid()
    {
      if current == target {
        return Ops.SelfFollow;
      }
      if Ops.IsFollowing(Snapshot(), current, target) {
        return Ops.AlreadyFollowing;
      }
      if !accepted {
        return Ops.FollowRefused;
      }
      follows := follows + [Follow(current, target, date)];
      outcome := Ops.Followed;
      if old(Valid()) {
        Ops.FollowKeepsConsistent(old(Snapshot()), current, target, date, accepted);
      }
    }

    /** `add_to_favorite_list`: the user's lists are numbered from 1 and
        the typed number picks the list the tweet is added to. */
    method AddToFavoriteList(current: int, tid: int, answer: string, accepted: bool) returns (outcome: Ops.ListOutcome)
      modifies this
      ensures (Snapshot(), outcome) == Ops.AddToFavoriteList(old(Snapshot()), current, tid, answer, accepted)
      ensures old(Valid()) ==> Valid()
    {
      var names := OwnedListNames(Snapshot(), current);
      if names == [] {
        return Ops.NoLists;
      }
      var selection := ParseSelection(answer, |names|);
      if selection.NotANumber? {
        return Ops.Cancelled;
      }
      if selection.OutOfRange? {
        return Ops.InvalidList;
      }
      if !accepted {
        return Ops.AddRefused;
      }
      var lname := names[selection.index];
      includes := includes + [Include(current, lname, tid)];
      outcome := Ops.Added(lname);
      if old(Valid()) {
        Ops.AddToListKeepsConsistent(old(Snapshot()), current, tid, answer, accepted);
      }
    }
  }
}

=== FILE: text.dfy ===
/** ASCII text handling of the console client: case folding, whitespace
    stripping, comma splitting into search keywords, hashtag extraction,
    the e-mail check of signup and the parsing of 1-based selections.

    Characters outside ASCII are not given Python's Unicode behaviour here:
    `IsSpace`, `LowerChar`, `IsWordChar` and `IsDigit` are the ASCII parts of
    Python's `str.isspace`, `str.lower`, the regular-expression class `\w`
    and `str.isdigit`. */
module Text {

  // ---------------------------------------------------------------------
  // Characters
  // ---------------------------------------------------------------------

  /** The ASCII characters for which Python's `str.isspace` holds. */
  predicate IsSpace(c: char) {
    c == ' ' || 9 <= c as int <= 13 || 28 <= c as int <= 31
  }

  predicate IsUpper(c: char) { 'A' <= c <= 'Z' }

  /** `\w` restricted to ASCII: letters, digits and the underscore. */
  predicate IsWordChar(c: char) {
    'a' <= c <= 'z' || 'A' <= c <= 'Z' || '0' <= c <= '9' || c == '_'
  }

  predicate IsDigit(c: char) { '0' <= c <= '9' }

  function LowerChar(c: char): (r: char)
    ensures !IsUpper(r)
    ensures IsSpace(r) == IsSpace(c) && IsWordChar(r) == IsWordChar(c)
    ensures !IsUpper(c) ==> r == c
  {
    if IsUpper(c) then (c as int - 'A' as int + 'a' as int) as char else c
  }

  // ---------------------------------------------------------------------
  // Lower-casing (Python `str.lower`, SQLite `lower()`)
  // ---------------------------------------------------------------------

  predicate IsLower(s: string) {
    forall i | 0 <= i < |s| :: !IsUpper(s[i])
  }

  function Lower(s: string): (r: string)
    ensures |r| == |s| && IsLower(r)
    ensures forall i | 0 <= i < |s| :: r[i] == LowerChar(s[i])
    ensures IsLower(s) ==> r == s
  {
    seq(|s|, i requires 0 <= i < |s| => LowerChar(s[i]))
  }

  // ---------------------------------------------------------------------
  // Stripping (Python `str.strip()` with no argument)
  // ---------------------------------------------------------------------

  /** Number of white-space characters at the start of `s`. */
  function LeadingSpaces(s: string): (n: nat)
    ensures n <= |s|
    ensures forall k | 0 <= k < n :: IsSpace(s[k])
    ensures n < |s| ==> !IsSpace(s[n])
    decreases |s|
  {
    if s != [] && IsSpace(s[0]) then 1 + LeadingSpaces(s[1..]) else 0
  }

  /** Number of white-space characters at the end of `s`. */
  function TrailingSpaces(s: string): (n: nat)
    ensures n <= |s|
    ensures forall k | |s| - n <= k < |s| :: IsSpace(s[k])
    ensures n < |s| ==> !IsSpace(s[|s| - 1 - n])
    decreases |s|
  {
    if s != [] && IsSpace(s[|s| - 1]) then 1 + TrailingSpaces(s[..|s| - 1]) else 0
  }

  /** True of a string that has no white space at either end. */
  predicate IsStripped(s: string) {
    s == [] || (!IsSpace(s[0]) && !IsSpace(s[|s| - 1]))
  }

  function Strip(s: string): (r: string)
    ensures IsStripped(r)
  {
    var a := LeadingSpaces(s);
    var t := s[a..];
    var r := t[..|t| - TrailingSpaces(t)];
    assert r != [] ==> r[0] == s[a];
    r
  }

  /** `Strip` keeps the middle of the string, from its first to its last
      non-white-space character, and is empty exactly on blank strings. */
  lemma StripSpec(s: string)
    ensures LeadingSpaces(s) + |Strip(s)| <= |s|
    ensures Strip(s) == s[LeadingSpaces(s) .. LeadingSpaces(s) + |Strip(s)|]
    ensures forall k | 0 <= k < |s| && !IsSpace(s[k]) ::
      LeadingSpaces(s) <= k < LeadingSpaces(s) + |Strip(s)|
    ensures Strip(s) == [] <==> forall k | 0 <= k < |s| :: IsSpace(s[k])
  {
  }

  lemma StripOfStripped(s: string)
    requires IsStripped(s)
    ensures Strip(s) == s
  {
    if s != [] {
      assert LeadingSpaces(s) == 0;
      assert TrailingSpaces(s) == 0;
    }
  }

  lemma LowerKeepsStripped(s: string)
    requires IsStripped(s)
    ensures IsStripped(Lower(s))
  {
  }

  // ---------------------------------------------------------------------
  // Substrings (the `LIKE '%k%'` and `in` tests)
  // ---------------------------------------------------------------------

  predicate OccursAt(s: string, k: string, i: nat) {
    i + |k| <= |s| && s[i..i + |k|] == k
  }

  /** `k` is a contiguous substring of `s`. */
  predicate Contains(s: string, k: string) {
    exists i: nat | i <= |s| :: OccursAt(s, k, i)
  }

  // ---------------------------------------------------------------------
  // Comma splitting (Python `s.split(',')`)
  // ---------------------------------------------------------------------

  /** Joins pieces with commas; the inverse of `SplitCommas`. */
  function JoinCommas(ps: seq<string>): string
    decreases |ps|
  {
    if |ps| == 0 then ""
    else if |ps| == 1 then ps[0]
    else ps[0] + "," + JoinCommas(ps[1..])
  }

  function CountChar(s: string, c: char): nat
    decreases |s|
  {
    if s == [] then 0 else (if s[0] == c then 1 else 0) + CountChar(s[1..], c)
  }

  /** The pieces of `s` between commas, in order: one more piece than
      there are commas, none of them containing a comma, and joining them
      back with commas gives `s` again. */
  function SplitCommas(s: string): (ps: seq<string>)
    ensures |ps| == CountChar(s, ',') + 1
    ensures forall j | 0 <= j < |ps| :: ',' !in ps[j]
    ensures JoinCommas(ps) == s
    decreases |s|
  {
    if s == [] then [""]
    else
      var rest := SplitCommas(s[1..]);
      if s[0] == ',' then
        assert JoinCommas([""] + rest) == "," + JoinCommas(rest);
        [""] + rest
      else
        var ps := [[s[0]] + rest[0]] + rest[1..];
        assert JoinCommas(ps) == [s[0]] + JoinCommas(rest) by {
          if |rest| > 1 {
            assert ps[1..] == rest[1..];
          }
        }
        assert s == [s[0]] + s[1..];
        ps
  }

  /** Splitting undoes joining, for pieces without commas. */
  lemma {:induction false} SplitJoin(ps: seq<string>)
    requires |ps| >= 1
    requires forall j | 0 <= j < |ps| :: ',' !in ps[j]
    ensures SplitCommas(JoinCommas(ps)) == ps
    decreases |ps|
  {
    if |ps| == 1 {
      SplitNoComma(ps[0]);
    } else {
      SplitJoin(ps[1..]);
      SplitPrefix(ps[0], JoinCommas(ps[1..]));
      assert ps == [ps[0]] + ps[1..];
    }
  }

  lemma {:induction false} SplitNoComma(p: string)
    requires ',' !in p
    ensures SplitCommas(p) == [p]
    decreases |p|
  {
    if p != [] {
      SplitNoComma(p[1..]);
      assert [p[0]] + p[1..] == p;
    }
  }

  /** A comma-free piece in front of a comma becomes the first piece. */
  lemma {:induction false} SplitPrefix(p: string, rest: string)
    requires ',' !in p
    ensures SplitCommas(p + "," + rest) == [p] + SplitCommas(rest)
    decreases |p|
  {
    if p == [] {
      assert p + "," + rest == [','] + rest;
      assert ([','] + rest)[1..] == rest;
    } else {
      var s := p + "," + rest;
      assert s[1..] == p[1..] + "," + rest;
      SplitPrefix(p[1..], rest);
      var r := SplitCommas(s[1..]);
      assert r == [p[1..]] + SplitCommas(rest);
      assert s[0] == p[0] && s[0] != ',';
      assert SplitCommas(s) == [[p[0]] + r[0]] + r[1..];
      assert [p[0]] + p[1..] == p;
      assert r[1..] == SplitCommas(rest);
    }
  }

  // ---------------------------------------------------------------------
  // Search keywords: `[k.strip().lower() for k in s.split(',') if k.strip()]`
  // ---------------------------------------------------------------------

  /** What a parsed keyword looks like: non-empty, stripped, lower-case and
      without a comma. */
  predicate IsKeyword(k: string) {
    k != [] && IsStripped(k) && IsLower(k) && ',' !in k
  }

  predicate NoCommas(pieces: seq<string>) {
    forall j | 0 <= j < |pieces| :: ',' !in pieces[j]
  }

  function KeywordsOf(pieces: seq<string>): (ks: seq<string>)
    requires NoCommas(pieces)
    ensures |ks| <= |pieces|
    ensures forall j | 0 <= j < |ks| :: IsKeyword(ks[j])
    decreases |pieces|
  {
    if pieces == [] then []
    else
      var k := Strip(pieces[0]);
      assert ',' !in pieces[0];
      assert forall i | 0 <= i < |k| :: k[i] == pieces[0][LeadingSpaces(pieces[0]) + i];
      assert forall i | 0 <= i < |k| :: Lower(k)[i] != ',';
      LowerKeepsStripped(k);
      (if k == [] then [] else [Lower(k)]) + KeywordsOf(pieces[1..])
  }

  /** The keywords of a comma-separated search line, in input order. */
  function ParseKeywords(line: string): (ks: seq<string>)
    ensures forall j | 0 <= j < |ks| :: IsKeyword(ks[j])
  {
    KeywordsOf(SplitCommas(line))
  }

  /** Every piece stripped and lower-cased, in order. */
  function Trimmed(pieces: seq<string>): (r: seq<string>)
    ensures |r| == |pieces|
    decreases |pieces|
  {
    if pieces == [] then [] else [Lower(Strip(pieces[0]))] + Trimmed(pieces[1..])
  }

  /** The non-empty entries, in order. */
  function NonEmpty(xs: seq<string>): (r: seq<string>)
    ensures |r| <= |xs|
    decreases |xs|
  {
    if xs == [] then [] else (if xs[0] == [] then [] else [xs[0]]) + NonEmpty(xs[1..])
  }

  /** The keywords are exactly the pieces, stripped and lower-cased, with
      the blank ones dropped, in input order. */
  lemma {:induction false} KeywordsOfSpec(pieces: seq<string>)
    requires NoCommas(pieces)
    ensures KeywordsOf(pieces) == NonEmpty(Trimmed(pieces))
    decreases |pieces|
  {
    if pieces != [] {
      assert NoCommas(pieces[1..]) by {
        assert forall j | 0 <= j < |pieces[1..]| :: pieces[1..][j] == pieces[j + 1];
      }
      KeywordsOfSpec(pieces[1..]);
    }
  }

  /** The same for a whole search line. */
  lemma ParseKeywordsSpec(line: string)
    ensures ParseKeywords(line) == NonEmpty(Trimmed(SplitCommas(line)))
  {
    KeywordsOfSpec(SplitCommas(line));
  }

  /** The worked example: `" Foo, ,bar"` gives `["foo", "bar"]`. */
  lemma ParseKeywordsExample()
    ensures ParseKeywords(" Foo, ,bar") == ["foo", "bar"]
  {
    ParseKeywordsSpec(" Foo, ,bar");
    ExampleSplit();
    ExampleTrimmed();
    ExampleNonEmpty();
  }

  lemma ExampleSplit()
    ensures SplitCommas(" Foo, ,bar") == [" Foo", " ", "bar"]
  {
    var ps := [" Foo", " ", "bar"];
    assert JoinCommas(ps) == " Foo, ,bar" by {
      assert JoinCommas(ps[1..]) == " ,bar";
    }
    SplitJoin(ps);
  }

  lemma ExampleNonEmpty()
    ensures NonEmpty(["foo", "", "bar"]) == ["foo", "bar"]
  {
    var xs := ["foo", "", "bar"];
    assert xs[1..] == ["", "bar"] && xs[1..][1..] == ["bar"] && xs[1..][1..][1..] == [];
  }

  lemma ExampleTrimmed()
    ensures Trimmed([" Foo", " ", "bar"]) == ["foo", "", "bar"]
  {
    TrimmedThree(" Foo", " ", "bar");
    ExampleStrips();
    ExampleLowers();
  }

  lemma ExampleLowers()
    ensures Lower("Foo") == "foo" && Lower("") == "" && Lower("bar") == "bar"
  {
    LowerFoo();
    assert IsLower("bar");
  }

  lemma TrimmedThree(a: string, b: string, c: string)
    ensures Trimmed([a, b, c]) == [Lower(Strip(a)), Lower(Strip(b)), Lower(Strip(c))]
  {
    assert Trimmed([c]) == [Lower(Strip(c))] by {
      assert [c][1..] == [];
    }
    assert Trimmed([b, c]) == [Lower(Strip(b))] + Trimmed([c]) by {
      assert [b, c][1..] == [c];
    }
    assert Trimmed([a, b, c]) == [Lower(Strip(a))] + Trimmed([b, c]) by {
      assert [a, b, c][1..] == [b, c];
    }
  }

  lemma ExampleStrips()
    ensures Strip(" Foo") == "Foo" && Strip(" ") == "" && Strip("bar") == "bar"
  {
    assert LeadingSpaces(" Foo") == 1;
    assert TrailingSpaces("Foo") == 0;
    StripSpec(" ");
    StripOfStripped("bar");
  }

  /** Keywords that are already in parsed form pass through unchanged. */
  lemma {:induction false} KeywordsOfKeywords(ks: seq<string>)
    requires forall j | 0 <= j < |ks| :: IsKeyword(ks[j])
    ensures NoCommas(ks) && KeywordsOf(ks) == ks
    decreases |ks|
  {
    if ks != [] {
      StripOfStripped(ks[0]);
      KeywordsOfKeywords(ks[1..]);
      assert ks == [ks[0]] + ks[1..];
    }
  }

  /** Parsing a line made by joining keywords with commas gives back exactly
      those keywords. */
  lemma KeywordsRoundTrip(ks: seq<string>)
    requires forall j | 0 <= j < |ks| :: IsKeyword(ks[j])
    ensures ParseKeywords(JoinCommas(ks)) == ks
  {
    if ks == [] {
      assert SplitCommas("") == [""];
    } else {
      SplitJoin(ks);
      KeywordsOfKeywords(ks);
    }
  }

  /** The search is abandoned exactly when the line holds nothing but
      commas and white space. */
  lemma NoKeywordsIff(line: string)
    ensures ParseKeywords(line) == [] <==> OnlyBlanks(line)
  {
    var ps := SplitCommas(line);
    NoKeywordsOf(ps);
    BlankPiecesIff(line);
  }

  predicate AllSpace(p: string) {
    forall k | 0 <= k < |p| :: IsSpace(p[k])
  }

  predicate OnlyBlanks(s: string) {
    forall i | 0 <= i < |s| :: IsSpace(s[i]) || s[i] == ','
  }

  predicate BlankPieces(ps: seq<string>) {
    forall j | 0 <= j < |ps| :: AllSpace(ps[j])
  }

  lemma {:induction false} NoKeywordsOf(ps: seq<string>)
    requires NoCommas(ps)
    ensures KeywordsOf(ps) == [] <==> BlankPieces(ps)
    decreases |ps|
  {
    if ps != [] {
      NoKeywordsOf(ps[1..]);
      BlankPiecesCons(ps);
    }
  }

  lemma AllSpaceCons(c: char, q: string)
    ensures AllSpace([c] + q) <==> IsSpace(c) && AllSpace(q)
  {
    var p := [c] + q;
    assert forall k | 1 <= k < |p| :: p[k] == q[k - 1];
    if IsSpace(c) && AllSpace(q) {
      forall k | 0 <= k < |p| ensures IsSpace(p[k]) {
        if k > 0 { assert p[k] == q[k - 1]; }
      }
    }
    if AllSpace(p) {
      assert IsSpace(p[0]);
      forall k | 0 <= k < |q| ensures IsSpace(q[k]) { assert q[k] == p[k + 1]; }
    }
  }

  lemma {:induction false} BlankPiecesIff(s: string)
    ensures BlankPieces(SplitCommas(s)) <==> OnlyBlanks(s)
    decreases |s|
  {
    if s != [] {
      var rest := SplitCommas(s[1..]);
      BlankPiecesIff(s[1..]);
      OnlyBlanksCons(s);
      BlankPiecesCons(rest);
      if s[0] == ',' {
        var ps := [""] + rest;
        assert SplitCommas(s) == ps && ps[1..] == rest;
        BlankPiecesCons(ps);
      } else {
        var p := [s[0]] + rest[0];
        var ps := [p] + rest[1..];
        assert SplitCommas(s) == ps && ps[1..] == rest[1..];
        BlankPiecesCons(ps);
        AllSpaceCons(s[0], rest[0]);
      }
    }
  }

  lemma OnlyBlanksCons(s: string)
    requires s != []
    ensures OnlyBlanks(s) <==> (IsSpace(s[0]) || s[0] == ',') && OnlyBlanks(s[1..])
  {
    assert forall i | 1 <= i < |s| :: s[i] == s[1..][i - 1];
  }

  lemma BlankPiecesCons(ps: seq<string>)
    requires ps != []
    ensures BlankPieces(ps) <==> AllSpace(ps[0]) && BlankPieces(ps[1..])
  {
    assert forall j | 1 <= j < |ps| :: ps[j] == ps[1..][j - 1];
  }

  // ---------------------------------------------------------------------
  // Hashtags: `{m.lower() for m in re.findall(r"#(\w+)", text)}`
  // ---------------------------------------------------------------------

  /** The longest prefix of `s` made of word characters. */
  function WordRun(s: string): (w: string)
    ensures |w| <= |s|
    decreases |s|
  {
    if s != [] && IsWordChar(s[0]) then [s[0]] + WordRun(s[1..]) else []
  }

  /** The word run is a prefix of word characters, and it is maximal. */
  lemma {:induction false} WordRunFacts(s: string)
    ensures var w := WordRun(s);
      w == s[..|w|] && (forall k | 0 <= k < |w| :: IsWordChar(w[k])) && (|w| < |s| ==> !IsWordChar(s[|w|]))
    decreases |s|
  {
    if s != [] && IsWordChar(s[0]) {
      WordRunFacts(s[1..]);
      var w := WordRun(s);
      assert w == [s[0]] + WordRun(s[1..]);
      assert forall k | 1 <= k < |w| :: w[k] == WordRun(s[1..])[k - 1];
    }
  }

  /** The run of word characters that starts at `n` and ends at a non-word
      character or the end is the word run. */
  lemma {:induction false} WordRunIs(s: string, n: nat)
    requires n <= |s|
    requires forall k | 0 <= k < n :: IsWordChar(s[k])
    requires n < |s| ==> !IsWordChar(s[n])
    ensures WordRun(s) == s[..n]
    decreases n
  {
    if n > 0 {
      WordRunIs(s[1..], n - 1);
      assert s[..n] == [s[0]] + s[1..][..n - 1];
    }
  }

  /** A hashtag term: non-empty, lower-case, word characters only. */
  predicate IsTerm(t: string) {
    t != [] && IsLower(t) && forall k | 0 <= k < |t| :: IsWordChar(t[k])
  }

  /** A match of `#(\w+)` starts at position `i` of `s`. */
  predicate TagAt(s: string, i: int) {
    0 <= i && i + 1 < |s| && s[i] == '#' && IsWordChar(s[i + 1])
  }

  /** The lower-cased terms `re.findall(r"#(\w+)", s)` returns, as a set.
      The scan resumes after each match, as `findall` does. */
  function Hashtags(s: string): set<string>
    decreases |s|
  {
    if |s| < 2 then {}
    else if s[0] == '#' && IsWordChar(s[1]) then
      var w := WordRun(s[1..]);
      {Lower(w)} + Hashtags(s[1 + |w|..])
    else Hashtags(s[1..])
  }

  /** Every extracted term is non-empty, lower-case and made of word
      characters. */
  lemma {:induction false} HashtagsAreTerms(s: string)
    ensures forall t | t in Hashtags(s) :: IsTerm(t)
    decreases |s|
  {
    if |s| >= 2 {
      if s[0] == '#' && IsWordChar(s[1]) {
        var w := WordRun(s[1..]);
        WordRunFacts(s[1..]);
        assert w != [] && w[0] == s[1];
        var l := Lower(w);
        assert forall k | 0 <= k < |l| :: IsWordChar(l[k]) by {
          forall k | 0 <= k < |l| ensures IsWordChar(l[k]) {
            assert l[k] == LowerChar(w[k]);
          }
        }
        HashtagsAreTerms(s[1 + |w|..]);
      } else {
        HashtagsAreTerms(s[1..]);
      }
    }
  }

  /** A term is extracted exactly when some `#` in the text is directly
      followed by a maximal run of word characters that lower-cases to it. */
  lemma HashtagsIff(s: string, t: string)
    ensures t in Hashtags(s) <==> exists i | TagAt(s, i) :: t == Lower(WordRun(s[i + 1..]))
  {
    if t in Hashtags(s) {
      var i := HashtagsSound(s, t);
    }
    forall i | TagAt(s, i) && t == Lower(WordRun(s[i + 1..])) ensures t in Hashtags(s) {
      HashtagsComplete(s, i);
    }
  }

  /** Every extracted term comes from a `#` position of the text. */
  lemma {:induction false} HashtagsSound(s: string, t: string) returns (i: int)
    requires t in Hashtags(s)
    ensures TagAt(s, i) && t == Lower(WordRun(s[i + 1..]))
    decreases |s|
  {
    if s[0] == '#' && IsWordChar(s[1]) {
      var w := WordRun(s[1..]);
      var n := 1 + |w|;
      if t == Lower(w) {
        i := 0;
      } else {
        var j := HashtagsSound(s[n..], t);
        TermShift(s, n, j);
        i := n + j;
      }
    } else {
      var j := HashtagsSound(s[1..], t);
      TermShift(s, 1, j);
      i := 1 + j;
    }
  }

  /** A position of a suffix is the same position of the whole text,
      shifted by where the suffix starts. */
  lemma TermShift(s: string, n: nat, j: nat)
    requires n + j < |s|
    ensures TagAt(s, n + j) <==> TagAt(s[n..], j)
    ensures WordRun(s[n + j + 1..]) == WordRun(s[n..][j + 1..])
  {
    assert s[n + j + 1..] == s[n..][j + 1..];
  }

  /** Every `#` position of the text contributes its term. */
  lemma {:induction false} HashtagsComplete(s: string, i: int)
    requires TagAt(s, i)
    ensures Lower(WordRun(s[i + 1..])) in Hashtags(s)
    decreases |s|
  {
    if s[0] == '#' && IsWordChar(s[1]) {
      if i != 0 {
        var n := 1 + |WordRun(s[1..])|;
        TagAfterRun(s, i);
        TermShift(s, n, i - n);
        HashtagsComplete(s[n..], i - n);
      }
    } else {
      TermShift(s, 1, i - 1);
      HashtagsComplete(s[1..], i - 1);
    }
  }

  /** A `#` cannot sit inside the word run of an earlier tag, so the next
      tag starts after it. */
  lemma TagAfterRun(s: string, i: int)
    requires TagAt(s, i) && i != 0 && s[0] == '#' && IsWordChar(s[1])
    ensures i >= 1 + |WordRun(s[1..])|
  {
    var w := WordRun(s[1..]);
    WordRunFacts(s[1..]);
    if i < 1 + |w| {
      assert false;
    }
  }

  /** The scanning loop of compose: every `#` followed by word characters
      contributes its maximal word run, lower-cased, to a set. */
  method ExtractHashtags(text: string) returns (tags: set<string>)
    ensures tags == Hashtags(text)
  {
    tags := {};
    var i := 0;
    while i < |text|
      invariant 0 <= i <= |text|
      invariant tags + Hashtags(text[i..]) == Hashtags(text)
      decreases |text| - i
    {
      if text[i] == '#' && i + 1 < |text| && IsWordChar(text[i + 1]) {
        var j := EndOfWord(text, i + 1);
        HashtagsAtTag(text, i, j);
        tags := tags + {Lower(text[i + 1..j])};
        i := j;
      } else {
        HashtagsSkip(text, i);
        i := i + 1;
      }
    }
  }

  /** The end of the run of word characters starting at `start`. */
  method EndOfWord(text: string, start: nat) returns (j: nat)
    requires start <= |text|
    ensures start <= j <= |text|
    ensures forall k | start <= k < j :: IsWordChar(text[k])
    ensures j < |text| ==> !IsWordChar(text[j])
  {
    j := start;
    while j < |text| && IsWordChar(text[j])
      invariant start <= j <= |text|
      invariant forall k | start <= k < j :: IsWordChar(text[k])
      decreases |text| - j
    {
      j := j + 1;
    }
  }

  lemma HashtagsAtTag(text: string, i: nat, j: nat)
    requires i + 1 < j <= |text| && text[i] == '#'
    requires forall k | i + 1 <= k < j :: IsWordChar(text[k])
    requires j < |text| ==> !IsWordChar(text[j])
    ensures Hashtags(text[i..]) == {Lower(text[i + 1..j])} + Hashtags(text[j..])
  {
    WordRunIs(text[i + 1..], j - (i + 1));
    var s := text[i..];
    assert text[i + 1..][..j - (i + 1)] == text[i + 1..j];
    assert s[1..] == text[i + 1..];
    assert s[0] == '#' && IsWordChar(s[1]);
    var w := WordRun(s[1..]);
    assert w == text[i + 1..j];
    assert s[1 + |w|..] == text[j..];
  }

  lemma HashtagsSkip(text: string, i: nat)
    requires i < |text|
    requires !(text[i] == '#' && i + 1 < |text| && IsWordChar(text[i + 1]))
    ensures Hashtags(text[i..]) == Hashtags(text[i + 1..])
  {
    assert text[i..][1..] == text[i + 1..];
  }

  /** A stretch without `#` contributes no term. */
  lemma {:induction false} HashtagsSkipPlain(text: string, i: nat, j: nat)
    requires i <= j <= |text|
    requires forall k | i <= k < j :: text[k] != '#'
    ensures Hashtags(text[i..]) == Hashtags(text[j..])
    decreases j - i
  {
    if i < j {
      HashtagsSkip(text, i);
      HashtagsSkipPlain(text, i + 1, j);
    }
  }

  /** The worked example: `"hello #Foo #foo bar"` yields the single term
      `foo`, the two spellings folding together. */
  lemma HashtagsExample()
    ensures Hashtags("hello #Foo #foo bar") == {"foo"}
  {
    ExampleParts("hello #Foo #foo bar");
    ExampleTags("hello #Foo #foo bar");
  }

  /** The example scanned position by position: plain text, a tag, a blank,
      a tag, plain text. */
  lemma ExampleTags(text: string)
    requires |text| == 19 && text[6] == '#' && text[11] == '#'
    requires forall k | 0 <= k < 6 :: text[k] != '#'
    requires forall k | 15 <= k < 19 :: text[k] != '#'
    requires text[10] == ' '
    requires forall k | 7 <= k < 10 :: IsWordChar(text[k])
    requires forall k | 12 <= k < 15 :: IsWordChar(text[k])
    requires !IsWordChar(text[10]) && !IsWordChar(text[15])
    requires text[7..10] == "Foo" && text[12..15] == "foo"
    ensures Hashtags(text) == {"foo"}
  {
    HashtagsSkipPlain(text, 0, 6);
    HashtagsAtTag(text, 6, 10);
    HashtagsSkip(text, 10);
    HashtagsAtTag(text, 11, 15);
    HashtagsSkipPlain(text, 15, 19);
    LowerFoo();
    assert text[0..] == text;
    assert text[19..] == [];
  }

  /** Where the example's tags, words and plain stretches lie. */
  lemma ExampleParts(text: string)
    requires text == "hello #Foo #foo bar"
    ensures |text| == 19 && text[6] == '#' && text[11] == '#'
    ensures forall k | 0 <= k < 6 :: text[k] != '#'
    ensures forall k | 15 <= k < 19 :: text[k] != '#'
    ensures text[10] == ' '
    ensures forall k | 7 <= k < 10 :: IsWordChar(text[k])
    ensures forall k | 12 <= k < 15 :: IsWordChar(text[k])
    ensures !IsWordChar(text[10]) && !IsWordChar(text[15])
    ensures text[7..10] == "Foo" && text[12..15] == "foo"
  {
  }

  lemma LowerFoo()
    ensures Lower("Foo") == "foo" && Lower("foo") == "foo"
  {
    assert Lower("Foo")[0] == 'f';
  }

  // ---------------------------------------------------------------------
  // E-mail check of signup
  // ---------------------------------------------------------------------

  /** The only test signup applies: an `@` and a `.` somewhere. */
  predicate ValidEmail(email: string) {
    '@' in email && '.' in email
  }

  // ---------------------------------------------------------------------
  // 1-based selections: `s.isdigit()` then `int(s) - 1` within range
  // ---------------------------------------------------------------------

  /** Python's `str.isdigit` on ASCII: non-empty, decimal digits only. */
  predicate IsDigits(s: string) {
    s != [] && forall k | 0 <= k < |s| :: IsDigit(s[k])
  }

  /** Python's `int` on a string of decimal digits (leading zeros allowed). */
  function DigitsValue(s: string): nat
    requires forall k | 0 <= k < |s| :: IsDigit(s[k])
    decreases |s|
  {
    if s == [] then 0
    else
      assert IsDigit(s[|s| - 1]);
      10 * DigitsValue(s[..|s| - 1]) + (s[|s| - 1] as int - '0' as int)
  }

  /** Decimal notation of a natural number, without leading zeros. */
  function DecimalString(n: nat): (s: string)
    ensures IsDigits(s) && IsStripped(s)
    ensures DigitsValue(s) == n
    decreases n
  {
    var d := ('0' as int + n % 10) as char;
    if n < 10 then [d]
    else
      var prefix := DecimalString(n / 10);
      assert (prefix + [d])[..|prefix|] == prefix;
      prefix + [d]
  }

  datatype Selection = NotANumber | OutOfRange | Selected(index: nat)

  /** A typed answer to "enter the number of ...", given `count` numbered
      entries: the 0-based index of the chosen entry, or why there is none. */
  function ParseSelection(answer: string, count: nat): (r: Selection)
    ensures r == NotANumber <==> !IsDigits(Strip(answer))
    ensures r.Selected? ==> r.index < count
  {
    var s := Strip(answer);
    if !IsDigits(s) then NotANumber
    else
      var idx := DigitsValue(s) - 1;
      if 0 <= idx < count then Selected(idx) else OutOfRange
  }

  /** The number typed, read as Python's `int` reads it (leading zeros
      allowed), picks the entry with that 1-based position when there is
      one; any other number is out of range. */
  lemma ParseSelectionIff(answer: string, count: nat)
    ensures ParseSelection(answer, count).Selected? <==>
      IsDigits(Strip(answer)) && 1 <= DigitsValue(Strip(answer)) <= count
    ensures ParseSelection(answer, count).Selected? ==>
      ParseSelection(answer, count).index == DigitsValue(Strip(answer)) - 1
    ensures ParseSelection(answer, count) == OutOfRange <==>
      IsDigits(Strip(answer)) && !(1 <= DigitsValue(Strip(answer)) <= count)
  {
  }

  /** Typing the number shown in front of entry `k` (that is, `k + 1`)
      selects entry `k`. */
  lemma SelectionRoundTrip(k: nat, count: nat)
    requires k < count
    ensures ParseSelection(DecimalString(k + 1), count) == Selected(k)
  {
    StripOfStripped(DecimalString(k + 1));
  }

  /** "0" and any number above the count are out of range. */
  lemma SelectionOutOfRange(n: nat, count: nat)
    requires n == 0 || n > count
    ensures ParseSelection(DecimalString(n), count) == OutOfRange
  {
    StripOfStripped(DecimalString(n));
  }
}
